=== FILE: README.md ===
# A model of the WebAssembly module loader

This project models the core of the interpreter's module loader, `wasm/src/core/module.rs`.
It has two halves:

- **Reading a binary module.** `RawModule::read` checks the 8-byte preamble (`\0asm`, version 1).
  It then walks the section stream. Custom sections are skipped wherever they appear. Every other
  section must come at or after the expected section type. The expected type is found by
  following the module builder's successor function over section types. Each section must be
  read to its end.
- **Resolving a raw module into a runnable module.** `Module::resolve_raw_module` does this in
  order:
  1. Resolve the imports through the host's resolver. Each is appended to the index space of its
     kind.
  2. Add the module's own functions, tables, memories and globals after the imported ones.
  3. Collect the exports into a map.
  4. Record the function types.
  5. Check that there is at most one table and at most one memory.
  6. Apply the element segments, then the data segments.
  7. Run the start function, if there is one.

  The bounded accessors the interpreter uses (`global_idx`, `table_idx`, …) are modelled as well.

Modules:

- `Base`: bytes, `Option`, the loader's errors, and `Result` with Rust's `?` as Dafny's `:-`.
- `Sections` and `SectionOrder`: the reader and its properties.
- `Store`: the raw module, the resolved module, the collaborators and the accessors.
- `Resolve`: the resolution stages.
- `ResolveProps`: properties of resolution as a whole.

The code the loader calls but that is not part of this model becomes function-typed parameters
that may fail:

- the host resolver (`Store.Resolver`);
- the constant-expression evaluator, `Global::new`, `Table::new`, `Memory::new`,
  `Table::set_entries`, `Memory::set_data` and `Callable::call` (`Store.Runtime`);
- the module builder's successor function over section types (`next`). It is only required to
  move strictly forward through the section ids. `SectionOrder.StandardNext` is the order of
  section 5.5.2 of the WebAssembly Core Specification 1.0, given as an instance.

In the loader, functions, tables, memories and globals are shared mutable cells (`Rc<RefCell<…>>`).
Here they are values in the module's sequences, and an export holds a position in an index space.
Positions never move once an item has been added, so within the module writes made by the
segments are seen through the exports, as they are through the shared cells. Sharing beyond that
is not modelled (see "Left out"): distinct positions never alias, and the host's view of imported
items is not part of the model.

## Model

| member | source | states |
|---|---|---|
| Sections.CheckHeader | wasm/src/core/module.rs:41-50 | the preamble is accepted exactly when its first 8 bytes are `00 61 73 6d 01 00 00 00`; any other 8 bytes give "invalid module header", and a stream shorter than 8 bytes gives a read error |
| Sections.FindSection | wasm/src/core/module.rs:71-86 | the search loop ends, and when it finds the section's type that type is the one sought and is not before the expected one |
| Sections.FindSectionReaches | wasm/src/core/module.rs:71-86 | the search finds a section type exactly when it lies on the successor chain starting at the expected type, the expected type included |
| Sections.Step | wasm/src/core/module.rs:63-97 | a custom section is accepted when its name and body can be read, and the expected type stays the same; any other section is accepted exactly when its type is reachable, its body is accepted and the body was read to its end, and then its type becomes the expected one; a custom section that cannot be read is a stream error; an unreachable type gives "invalid section order", a rejected body of a reachable section is a malformed section, and an unfinished body gives "failed to read whole section" |
| Sections.ReadSections | wasm/src/core/module.rs:56-102 | every section the loop hands on is non-custom, accepted and fully read, and the sections follow the successor chain from the expected type |
| Sections.ReadModule | wasm/src/core/module.rs:40-106 | a module is read only after a correct preamble, a wrong preamble is "invalid module header", a stream shorter than the preamble is a stream error, and the sections read follow the order starting at the type section |
| SectionOrder.ReadModuleAccepts | wasm/src/core/module.rs:40-106 | the reader hands the module builder its sections exactly when the preamble is correct and the section stream is readable and in order from the type section; they are then exactly the non-custom sections in stream order |
| SectionOrder.ReadSectionsAccepts | wasm/src/core/module.rs:56-102 | the loop succeeds exactly on streams whose sections up to the first unreadable id are all accepted, with non-custom ones fully read and in successor order; the result is exactly the non-custom sections in stream order |
| SectionOrder.CustomSectionsSkipped | wasm/src/core/module.rs:63-69 | removing a well-formed custom section from any position of the stream does not change the reader's result |
| SectionOrder.StandardNext | wasm/src/core/module.rs:83-84 | under the standard order each successor has the next section id, and only custom and data sections have no successor |
| SectionOrder.StandardReaches | wasm/src/core/module.rs:71-86 | under the standard order a section type is acceptable after another exactly when its id is not smaller |
| SectionOrder.StandardOrderAccepts | wasm/src/core/module.rs:52-102 | under the standard order a readable stream is accepted exactly when the ids of its non-custom sections never decrease, so types may repeat but never go back |
| Store.GlobalIdx | wasm/src/core/module.rs:446-452 | a global is returned exactly when the index is below the number of globals, and it is the global at that index; otherwise "global index out of range" |
| Store.GlobalIdxMut | wasm/src/core/module.rs:463-469 | mutable access succeeds exactly for an index in range; a write through it changes that global only, and every other accessor result is unchanged |
| Store.FuncTypeIdx | wasm/src/core/module.rs:471-477 | a function type is returned exactly when the index is in range, and it is the type at that index; otherwise "FuncType index out of range" |
| Store.TableIdx | wasm/src/core/module.rs:479-485 | a table is returned exactly when the index is in range, and it is the table at that index; otherwise "table index out of range" |
| Store.CallableIdx | wasm/src/core/module.rs:487-493 | a function is returned exactly when the index is in range, and it is the function at that index; otherwise "callable index out of range" |
| Store.MemIdx | wasm/src/core/module.rs:495-501 | a memory is returned exactly when the index is in range, and it is the memory at that index; otherwise "memory index out of range" |
| Store.MemIdxMut | wasm/src/core/module.rs:503-509 | mutable access succeeds exactly for an index in range; a write through it changes that memory only, and every other accessor result is unchanged |
| Resolve.ResolveImport | wasm/src/core/module.rs:186-217 | a function import with an out-of-range type index fails and names the import; otherwise each import asks the resolver for its kind (a function import with the indexed type), succeeds exactly when the resolver does, yields the resolver's item and passes the resolver's error on |
| Resolve.ResolveImports | wasm/src/core/module.rs:179-222 | import resolution succeeds exactly when every import resolves; then each index space grows by the resolutions of its kind, in declaration order, and nothing else changes |
| Resolve.Zip | wasm/src/core/module.rs:408-411 | pairs type indices with function bodies position by position, up to the shorter of the two lists |
| Resolve.AddFunctions | wasm/src/core/module.rs:224-241 | succeeds exactly when every type index is in range, else "function has invalid type index"; the defined functions follow the imported ones, each with the type its index names, and nothing else changes |
| Resolve.AddTables | wasm/src/core/module.rs:243-249 | appends one fresh table per table type, in order, after the existing tables, and changes nothing else |
| Resolve.AddMemories | wasm/src/core/module.rs:251-258 | appends one fresh memory per memory type, in order, after the existing memories, and changes nothing else |
| Resolve.AddGlobals | wasm/src/core/module.rs:260-272 | on success the defined globals follow the existing ones, each built from its initializer evaluated against the module holding only the globals before it, and nothing else changes |
| Resolve.AddGlobalsComplete | wasm/src/core/module.rs:260-272 | when every initializer evaluates and every global can be built, adding the globals succeeds and appends exactly those globals |
| Resolve.AddGlobalsFailure | wasm/src/core/module.rs:260-272 | when adding the globals fails, the globals before some position were built and the initializer or constructor at that position reported the error: the first failure decides |
| Resolve.CollectSingleExport | wasm/src/core/module.rs:274-280 | an export handle exists exactly for an index below the item count, and it is that index; otherwise "export has invalid index" |
| Resolve.CollectExport | wasm/src/core/module.rs:286-312 | an export description yields a handle exactly when its index is in range for its kind, and the handle refers to that item |
| Resolve.CollectExports | wasm/src/core/module.rs:282-316 | succeeds exactly when every export is in range; the map gains exactly the exported names, each bound to the last export of that name, other names keep their values, and nothing but the map changes |
| Resolve.PreExecuteValidate | wasm/src/core/module.rs:323-331 | passes exactly with at most one table and one memory; too many tables is reported before too many memories |
| Resolve.EvaluateOffsetExpression | wasm/src/core/module.rs:393-400 | an offset is produced exactly when the constant expression evaluates to a non-negative i32, and it is that value; another value type is "type mismatch in offset expression" and an evaluation error is passed on |
| Resolve.LookupFunctions | wasm/src/core/module.rs:340-351 | all indices are looked up exactly when every one is in range, giving the functions at those indices in order; otherwise "function index out of range" |
| Resolve.InitializeTableElement | wasm/src/core/module.rs:333-357 | a segment applies exactly when its table index, its offset and all its function indices are good, and each failure has its own error; on success only the target table changes, by writing the looked-up functions at the offset |
| Resolve.InitializeTableElements | wasm/src/core/module.rs:359-368 | applying element segments changes only table contents; the index spaces keep their sizes and the memories stay as they were |
| Resolve.InitializeMemoryData | wasm/src/core/module.rs:370-383 | a segment applies exactly when its memory index and offset are good and the memory accepts the bytes; a bad index or offset gives its own error, a refused write passes on the memory's own error, and on success only the target memory changes |
| Resolve.InitializeMemory | wasm/src/core/module.rs:385-391 | applying data segments changes only memory contents; the index spaces keep their sizes and the tables stay as they were |
| Resolve.BuildStore | wasm/src/core/module.rs:406-416 | the stages report in order: a failing import or function type index first, then a failing global initializer, then an out-of-range export; a built module has every import resolved, records the raw module's function types and has every export in range |
| Resolve.DeclareItems | wasm/src/core/module.rs:406-413 | the imports and the module's own functions, tables and memories are declared exactly when every import resolves and every function type index is in range; an import failure is reported before a bad type index |
| Resolve.Initialize | wasm/src/core/module.rs:421-425 | initialisation succeeds exactly with at most one table and one memory and no failing segment; validation errors come before element errors, and element errors before data errors; the tables then hold what the element segments wrote, the memories what the data segments wrote, and nothing else changes |
| Resolve.RunStart | wasm/src/core/module.rs:427-437 | without a start function the module is returned as is; an index outside the function space gives "start function not found"; otherwise the result is that of calling the function on the module |
| Resolve.ResolveRawModule | wasm/src/core/module.rs:402-440 | a resolved module was built and initialised, has at most one table and one memory, and its start index, if any, names a function; without a start function it is the initialised module |
| ResolveProps.ResolveImportsFirstError | wasm/src/core/module.rs:185-219 | when import resolution fails, its error is that of the first import that fails, and every earlier import resolved |
| ResolveProps.ImportCounts | wasm/src/core/module.rs:203-212 | each table import adds exactly one table and each memory import exactly one memory |
| ResolveProps.BuildStoreFunctions | wasm/src/core/module.rs:406-411 | the function index space is the imported functions in declaration order, then the defined functions, each with the type its type index names |
| ResolveProps.BuildStoreTables | wasm/src/core/module.rs:406-412 | the table index space is the imported tables in declaration order, then one fresh table per own table type |
| ResolveProps.BuildStoreMemories | wasm/src/core/module.rs:406-413 | the memory index space is the imported memories in declaration order, then one fresh memory per own memory type |
| ResolveProps.BuildStoreGlobalsAndExports | wasm/src/core/module.rs:406-415 | the imported globals come first in the global index space, and the export map has an entry exactly for each exported name, bound to the last export of that name |
| ResolveProps.ValidationCounts | wasm/src/core/module.rs:323-331 | the built module has as many tables and memories as the raw module imports and defines, so validation passes exactly when both counts are at most one |
| ResolveProps.TooManyTablesRejected | wasm/src/core/module.rs:421-425 | a module bringing two or more tables is rejected with "too many tables", before any segment is applied or the start function runs |
| ResolveProps.TooManyMemoriesRejected | wasm/src/core/module.rs:421-425 | with at most one table, a module bringing two or more memories is rejected with "too many memories", before any segment or start function |
| ResolveProps.BuildStoreFrame | wasm/src/core/module.rs:406-416 | building the store reads neither the segments nor the start index, and calls no function |
| ResolveProps.BuildFailureDecides | wasm/src/core/module.rs:405-416 | when the store cannot be built, that error is the result whatever the segments, the start index and the interpreter are |
| ResolveProps.ValidationFailureDecides | wasm/src/core/module.rs:421-425 | when validation fails, its error is the result whatever the segments, the start index and the interpreter are |
| ResolveProps.ElementFailureDecides | wasm/src/core/module.rs:424-425 | when an element segment fails, its error is the result whatever the data segments, the start index and the interpreter are |
| ResolveProps.DataFailureDecides | wasm/src/core/module.rs:425-437 | when a data segment fails, its error is the result whatever the start index and the interpreter are |
| ResolveProps.ResolvedCounts | wasm/src/core/module.rs:421-425 | a resolved module brings at most one table and one memory, counting imported ones |
| ResolveProps.StartRunsOnce | wasm/src/core/module.rs:427-437 | the start function is looked up in the function space resolution built and is called once, on the initialised module, and its result is the result of resolution |
| ResolveProps.ElementsSplit | wasm/src/core/module.rs:359-368 | applying a list of element segments is applying a first part and then, unless it failed, the rest |
| ResolveProps.ElementsSingle | wasm/src/core/module.rs:359-368 | a pass over one element segment continues from that segment's result when it applies, and stops at the unchanged module with its error when it fails |
| ResolveProps.ElementFailureKeepsPrefix | wasm/src/core/module.rs:333-368 | when segment k is the first element segment to fail, the tables are exactly as the earlier segments wrote them, and segment k's error is the result |
| ResolveProps.DataSplit | wasm/src/core/module.rs:385-391 | applying a list of data segments is applying a first part and then, unless it failed, the rest |
| ResolveProps.DataSingle | wasm/src/core/module.rs:385-391 | a pass over one data segment continues from that segment's result when it applies, and stops at the unchanged module with its error when it fails |
| ResolveProps.DataFailureKeepsPrefix | wasm/src/core/module.rs:370-391 | when segment k is the first data segment to fail, the memories are exactly as the earlier segments wrote them, and segment k's error is the result |
| ResolveProps.ExportsResolvable | wasm/src/core/module.rs:282-316 | after initialisation every export names an item that the module's bounded accessors return |

## Left out

- File I/O in `load_module_from_path` and the "skipping custom section" message are not modelled. Neither affects the result.
- Byte-level reading is abstracted. This covers LEB128 numbers, names, the scoped section reader, and how the module builder decodes each section body and builds the raw module (`process_section`, `make_module`). A section is reduced to its type, whether its body was accepted, and whether it was read to its end.
- The section-header read at line 57 is treated as the end of the module whenever it fails, as the source does (`Unreadable`). Its own code is not part of this model.
- The `usize::try_from(...).unwrap()` at line 59 is not modelled. It cannot fail on the platforms the loader targets.
- Sections.Step: at lines 89 and 95 the source calls `assert!(false, …)` before returning the error. `assert!` is checked in every build, so the source panics and the `return Err(…)` at lines 90 and 96 never runs. The model returns `InvalidSectionOrder` and `IncompleteSection` where the source panics.
- `get_next_section_type` is not part of this model. It is the parameter `next`, which is only required to increase the section id strictly. `SectionOrder.StandardNext` is one instance.
- Sections.ReadModule: `make_module` at line 104 is taken to succeed. Its code is not part of this model, and the source can still fail there after a correct preamble and a readable, in-order stream. The model's result is the sections handed to the module builder, so `SectionOrder.ReadModuleAccepts` states when the reader hands them over, not when the built raw module is returned.
- Resolve.EvaluateOffsetExpression: at line 397 the source unwraps the conversion of a negative i32 to `usize`, which panics. The model returns the error `NegativeOffset` instead.
- Resolve.AddGlobals: `evaluate_constant_expression(…, 1)` is modelled as returning the one requested value. The indexing `results[0]` at lines 266 and 396 therefore cannot fail here.
- Resolve.InitializeMemoryData: a failing `set_data` is taken to leave the memory unchanged. Its code is not part of this model.
- `Table::set_entries` is total. Line 353 ignores its result.
- Resolve.RunStart: the interpreter is the parameter `call`. It may change any part of the module, so nothing is promised about the module after the start function.
- Resolve.ResolveImport: the error keeps the module name and the import name as separate fields. The message text, which uses them in the order module name, import name, is not modelled.
- Resolve.AddTables and Resolve.AddMemories return the module directly. The source's `Result` for them is always `Ok`.
- `add_func_types` (lines 318-321) is the final step of `Resolve.BuildStore`.
- Store.GlobalIdxMut: positions never alias in the model. The resolver returns shared cells and may return the same cell for two imports, for example one host global imported twice. In the source, a write through `global_idx_mut(i)` then also changes `global_idx(j)`. The model promises that every other position is unchanged.
- Store.MemIdxMut: positions never alias in the model. A memory imported twice through the same host cell is two independent positions here, so a write through one is not seen through the other.
- Writes to imported tables, memories and globals are seen by the host in the source. The model has no host state, so the host's view of them is not modelled. This includes what a failed element or data pass leaves behind.
- Borrow-checking panics (`RefCell` already borrowed) are not modelled. They cannot arise in the sequential code modelled here.

=== FILE: base.dfy ===
/**
  Vocabulary shared by the module reader and the module resolver: bytes,
  failure-compatible wrappers, and the one error type both of them report.

  Every fallible step of loading a WebAssembly module returns a `Result`;
  the `:-` operator gives the early return of the `?` operator in the
  loader, so the first failing step decides the error of the whole load.
 */
module Base {

  newtype byte = x: int | 0 <= x < 256

  datatype Option<+T> = None | Some(value: T)

  /** The errors a module load can end with, one constructor per message
      the loader raises itself, plus `External` for whatever an unseen
      collaborator (resolver, constant evaluator, memory, interpreter) raises. */
  datatype Error =
    // reading the binary format
    | StreamError                     // the byte stream ended or a LEB128 number did not decode
    | InvalidModuleHeader             // the magic number or the version did not match
    | InvalidSectionOrder             // a section came before the one expected
    | IncompleteSection               // a section was not read to its end
    | MalformedSection                // the section's contents were rejected
    // resolving the raw module
    | InvalidImportTypeIndex(moduleName: string, name: string)
    | InvalidFunctionTypeIndex
    | InvalidExportIndex
    | TooManyTables
    | TooManyMemories
    | ElementTableIndexOutOfRange
    | ElementFunctionIndexOutOfRange
    | DataMemoryIndexOutOfRange
    | OffsetTypeMismatch
    | NegativeOffset
    | StartFunctionNotFound
    // the bounded accessors of the instantiated module
    | GlobalIndexOutOfRange
    | FuncTypeIndexOutOfRange
    | TableIndexOutOfRange
    | CallableIndexOutOfRange
    | MemoryIndexOutOfRange
    // raised by a collaborator whose code is not part of this model
    | External(code: nat)

  datatype Result<+T> = Ok(value: T) | Err(error: Error) {

    predicate IsFailure() {
      Err?
    }

    function PropagateFailure<U>(): Result<U>
      requires Err?
    {
      Err(error)
    }

    function Extract(): T
      requires Ok?
    {
      value
    }
  }
}

=== FILE: resolve.dfy ===
/**
  Resolution of a raw module into a module ready to run (the loader's
  version of instantiation, section 4.5.4 of the WebAssembly Core
  Specification 1.0): resolve the imports, add the module's own functions,
  tables, memories and globals after them, collect the exports, check that
  there is at most one table and one memory, apply the element segments and
  then the data segments, and finally run the start function.

  Each stage is a `Result`; the first stage that fails decides the error.
 */
module Resolve {
  import opened Base
  import opened Store

  // ---------------------------------------------------------------- imports

  /** What a single import resolves to. */
  datatype Resolved = ResolvedFunction(f: Callable) | ResolvedTable(t: Table) | ResolvedMemory(mem: Memory) | ResolvedGlobal(g: Global)

  predicate KindMatches(desc: ImportDesc, res: Resolved) {
    match desc
    case FuncImport(_) => res.ResolvedFunction?
    case TableImport(_) => res.ResolvedTable?
    case MemImport(_) => res.ResolvedMemory?
    case GlobalImport(_) => res.ResolvedGlobal?
  }

  /** Resolves one import through the host's resolver. A function import
      names its type by index, and that index must be in range. */
  function ResolveImport(imp: Import, types: seq<FuncType>, resolver: Resolver): (r: Result<Resolved>)
    ensures r.Ok? ==> KindMatches(imp.desc, r.value)
    ensures imp.desc.FuncImport? && imp.desc.typeIdx >= |types| ==> r == Err(InvalidImportTypeIndex(imp.moduleName, imp.name))
    ensures imp.desc.FuncImport? && imp.desc.typeIdx < |types| ==>
              var asked := resolver.resolveFunction(imp.moduleName, imp.name, types[imp.desc.typeIdx]);
              (r.Ok? <==> asked.Ok?) && (r.Ok? ==> r.value == ResolvedFunction(asked.value)) && (r.Err? ==> r.error == asked.error)
    ensures imp.desc.TableImport? ==>
              var asked := resolver.resolveTable(imp.moduleName, imp.name, imp.desc.tableType);
              (r.Ok? <==> asked.Ok?) && (r.Ok? ==> r.value == ResolvedTable(asked.value)) && (r.Err? ==> r.error == asked.error)
    ensures imp.desc.MemImport? ==>
              var asked := resolver.resolveMemory(imp.moduleName, imp.name, imp.desc.memType);
              (r.Ok? <==> asked.Ok?) && (r.Ok? ==> r.value == ResolvedMemory(asked.value)) && (r.Err? ==> r.error == asked.error)
    ensures imp.desc.GlobalImport? ==>
              var asked := resolver.resolveGlobal(imp.moduleName, imp.name, imp.desc.globalType);
              (r.Ok? <==> asked.Ok?) && (r.Ok? ==> r.value == ResolvedGlobal(asked.value)) && (r.Err? ==> r.error == asked.error)
  {
    match imp.desc
    case FuncImport(typeIdx) =>
      if typeIdx >= |types| then Err(InvalidImportTypeIndex(imp.moduleName, imp.name))
      else
        var f :- resolver.resolveFunction(imp.moduleName, imp.name, types[typeIdx]);
        Ok(ResolvedFunction(f))
    case TableImport(tableType) =>
      var t :- resolver.resolveTable(imp.moduleName, imp.name, tableType);
      Ok(ResolvedTable(t))
    case MemImport(memType) =>
      var mem :- resolver.resolveMemory(imp.moduleName, imp.name, memType);
      Ok(ResolvedMemory(mem))
    case GlobalImport(globalType) =>
      var g :- resolver.resolveGlobal(imp.moduleName, imp.name, globalType);
      Ok(ResolvedGlobal(g))
  }

  /** Every import resolves. */
  ghost predicate AllResolve(imports: seq<Import>, types: seq<FuncType>, resolver: Resolver) {
    forall i :: 0 <= i < |imports| ==> ResolveImport(imports[i], types, resolver).Ok?
  }

  /** The resolutions of `imports`, one per import, in declaration order. */
  ghost function Resolutions(imports: seq<Import>, types: seq<FuncType>, resolver: Resolver): (rs: seq<Resolved>)
    requires AllResolve(imports, types, resolver)
    ensures |rs| == |imports|
    ensures forall i :: 0 <= i < |imports| ==> Ok(rs[i]) == ResolveImport(imports[i], types, resolver)
  {
    seq(|imports|, i requires 0 <= i < |imports| => ResolveImport(imports[i], types, resolver).value)
  }

  /** The resolved functions among `rs`, in order. */
  function FunctionsOf(rs: seq<Resolved>): seq<Callable>
    decreases |rs|
  {
    if |rs| == 0 then [] else (if rs[0].ResolvedFunction? then [rs[0].f] else []) + FunctionsOf(rs[1..])
  }

  function TablesOf(rs: seq<Resolved>): seq<Table>
    decreases |rs|
  {
    if |rs| == 0 then [] else (if rs[0].ResolvedTable? then [rs[0].t] else []) + TablesOf(rs[1..])
  }

  function MemoriesOf(rs: seq<Resolved>): seq<Memory>
    decreases |rs|
  {
    if |rs| == 0 then [] else (if rs[0].ResolvedMemory? then [rs[0].mem] else []) + MemoriesOf(rs[1..])
  }

  function GlobalsOf(rs: seq<Resolved>): seq<Global>
    decreases |rs|
  {
    if |rs| == 0 then [] else (if rs[0].ResolvedGlobal? then [rs[0].g] else []) + GlobalsOf(rs[1..])
  }

  /** Appends a resolved import to the index space of its kind. */
  function Push(m: Module, res: Resolved): Module {
    match res
    case ResolvedFunction(f) => m.(functions := m.functions + [f])
    case ResolvedTable(t) => m.(tables := m.tables + [t])
    case ResolvedMemory(mem) => m.(memories := m.memories + [mem])
    case ResolvedGlobal(g) => m.(globals := m.globals + [g])
  }

  lemma OfCons(res: Resolved, rs: seq<Resolved>)
    ensures FunctionsOf([res] + rs) == (if res.ResolvedFunction? then [res.f] else []) + FunctionsOf(rs)
    ensures TablesOf([res] + rs) == (if res.ResolvedTable? then [res.t] else []) + TablesOf(rs)
    ensures MemoriesOf([res] + rs) == (if res.ResolvedMemory? then [res.mem] else []) + MemoriesOf(rs)
    ensures GlobalsOf([res] + rs) == (if res.ResolvedGlobal? then [res.g] else []) + GlobalsOf(rs)
  {
    var all := [res] + rs;
    assert all[0] == res && all[1..] == rs;
  }

  lemma PushCons(m: Module, res: Resolved, rs: seq<Resolved>)
    ensures Push(m, res).functions + FunctionsOf(rs) == m.functions + FunctionsOf([res] + rs)
    ensures Push(m, res).tables + TablesOf(rs) == m.tables + TablesOf([res] + rs)
    ensures Push(m, res).memories + MemoriesOf(rs) == m.memories + MemoriesOf([res] + rs)
    ensures Push(m, res).globals + GlobalsOf(rs) == m.globals + GlobalsOf([res] + rs)
    ensures Push(m, res).exports == m.exports && Push(m, res).funcTypes == m.funcTypes
  {
    OfCons(res, rs);
    match res
    case ResolvedFunction(f) =>
      assert m.functions + [f] + FunctionsOf(rs) == m.functions + ([f] + FunctionsOf(rs));
    case ResolvedTable(t) =>
      assert m.tables + [t] + TablesOf(rs) == m.tables + ([t] + TablesOf(rs));
    case ResolvedMemory(mem) =>
      assert m.memories + [mem] + MemoriesOf(rs) == m.memories + ([mem] + MemoriesOf(rs));
    case ResolvedGlobal(g) =>
      assert m.globals + [g] + GlobalsOf(rs) == m.globals + ([g] + GlobalsOf(rs));
  }

  /** Resolves the imports in declaration order, appending each to the index
      space of its kind; the first import that fails aborts. */
  function ResolveImports(m: Module, imports: seq<Import>, types: seq<FuncType>, resolver: Resolver): (r: Result<Module>)
    ensures r.Ok? <==> AllResolve(imports, types, resolver)
    ensures r.Ok? ==>
              var rs := Resolutions(imports, types, resolver);
              && r.value.functions == m.functions + FunctionsOf(rs)
              && r.value.tables == m.tables + TablesOf(rs)
              && r.value.memories == m.memories + MemoriesOf(rs)
              && r.value.globals == m.globals + GlobalsOf(rs)
              && r.value.exports == m.exports
              && r.value.funcTypes == m.funcTypes
    decreases |imports|
  {
    if |imports| == 0 then Ok(m)
    else
      var res :- ResolveImport(imports[0], types, resolver);
      var r := ResolveImports(Push(m, res), imports[1..], types, resolver);
      assert r.Ok? <==> AllResolve(imports, types, resolver) by {
        if AllResolve(imports[1..], types, resolver) {
          forall i | 0 <= i < |imports| ensures ResolveImport(imports[i], types, resolver).Ok? {
            if i > 0 {
              assert imports[i] == imports[1..][i - 1];
            }
          }
        }
        if AllResolve(imports, types, resolver) {
          forall i | 0 <= i < |imports| - 1 ensures ResolveImport(imports[1..][i], types, resolver).Ok? {
            assert imports[1..][i] == imports[i + 1];
          }
        }
      }
      if r.Ok? then
        var rs := Resolutions(imports, types, resolver);
        assert rs == [res] + Resolutions(imports[1..], types, resolver);
        PushCons(m, res, Resolutions(imports[1..], types, resolver));
        r
      else r
  }

  // ------------------------------------------------------- defined functions

  /** Pairs up type indices and function bodies; the longer list's excess is
      dropped. */
  function Zip(typeIdx: seq<nat>, funcs: seq<Func>): (pairs: seq<(nat, Func)>)
    ensures |pairs| == if |typeIdx| < |funcs| then |typeIdx| else |funcs|
    ensures forall k :: 0 <= k < |pairs| ==> pairs[k] == (typeIdx[k], funcs[k])
    decreases |typeIdx|
  {
    if |typeIdx| == 0 || |funcs| == 0 then []
    else [(typeIdx[0], funcs[0])] + Zip(typeIdx[1..], funcs[1..])
  }

  /** Appends the module's own functions after the imported ones; each
      function's type index must be in range. */
  function AddFunctions(m: Module, pairs: seq<(nat, Func)>, types: seq<FuncType>): (r: Result<Module>)
    ensures r.Ok? <==> forall k :: 0 <= k < |pairs| ==> pairs[k].0 < |types|
    ensures r.Err? ==> r.error == InvalidFunctionTypeIndex
    ensures r.Ok? ==>
              && r.value == m.(functions := r.value.functions)
              && |r.value.functions| == |m.functions| + |pairs|
              && r.value.functions[..|m.functions|] == m.functions
              && forall k :: 0 <= k < |pairs| ==>
                   pairs[k].0 < |types| &&
                   r.value.functions[|m.functions| + k] == WasmExprCallable(types[pairs[k].0], pairs[k].1)
    decreases |pairs|
  {
    if |pairs| == 0 then Ok(m)
    else if pairs[0].0 >= |types| then Err(InvalidFunctionTypeIndex)
    else
      var m' := m.(functions := m.functions + [WasmExprCallable(types[pairs[0].0], pairs[0].1)]);
      var r := AddFunctions(m', pairs[1..], types);
      assert r.Ok? ==> forall k :: 1 <= k < |pairs| ==> pairs[k] == pairs[1..][k - 1];
      assert r.Ok? <== forall k :: 0 <= k < |pairs| ==> pairs[k].0 < |types| by {
        if forall k :: 0 <= k < |pairs| ==> pairs[k].0 < |types| {
          assert forall k :: 0 <= k < |pairs| - 1 ==> pairs[1..][k] == pairs[k + 1];
        }
      }
      if r.Ok? then
        assert r.value.functions[..|m'.functions|] == m'.functions;
        assert r.value.functions[..|m.functions|] == m'.functions[..|m.functions|];
        r
      else r
  }

  // ------------------------------------------------- tables, memories, globals

  /** Appends a fresh table per table type. Adding tables never fails. */
  function AddTables(m: Module, tableTypes: seq<TableType>, rt: Runtime): (r: Module)
    ensures r == m.(tables := r.tables)
    ensures |r.tables| == |m.tables| + |tableTypes|
    ensures r.tables[..|m.tables|] == m.tables
    ensures forall k :: 0 <= k < |tableTypes| ==> r.tables[|m.tables| + k] == rt.newTable(tableTypes[k])
    decreases |tableTypes|
  {
    if |tableTypes| == 0 then m
    else
      var m' := m.(tables := m.tables + [rt.newTable(tableTypes[0])]);
      var r := AddTables(m', tableTypes[1..], rt);
      assert forall k :: 1 <= k < |tableTypes| ==> tableTypes[k] == tableTypes[1..][k - 1];
      assert r.tables[..|m.tables|] == m'.tables[..|m.tables|];
      r
  }

  /** Appends a fresh memory per memory type. Adding memories never fails. */
  function AddMemories(m: Module, memTypes: seq<MemType>, rt: Runtime): (r: Module)
    ensures r == m.(memories := r.memories)
    ensures |r.memories| == |m.memories| + |memTypes|
    ensures r.memories[..|m.memories|] == m.memories
    ensures forall k :: 0 <= k < |memTypes| ==> r.memories[|m.memories| + k] == rt.newMemory(memTypes[k])
    decreases |memTypes|
  {
    if |memTypes| == 0 then m
    else
      var m' := m.(memories := m.memories + [rt.newMemory(memTypes[0])]);
      var r := AddMemories(m', memTypes[1..], rt);
      assert forall k :: 1 <= k < |memTypes| ==> memTypes[k] == memTypes[1..][k - 1];
      assert r.memories[..|m.memories|] == m'.memories[..|m.memories|];
      r
  }

  /** Global `g` is what definition `def` yields when its initializer is
      evaluated against the module `store`. */
  ghost predicate InitializedFrom(rt: Runtime, store: Module, def: GlobalDef, g: Global) {
    && rt.evalConst(def.initExpr, store).Ok?
    && rt.newGlobal(def.globalType, rt.evalConst(def.initExpr, store).value) == Ok(g)
  }

  /** Appends the module's own globals. Each initializer is evaluated against
      the module as built so far: it sees the imported globals and the
      globals defined before it, and no later ones. */
  function AddGlobals(m: Module, defs: seq<GlobalDef>, rt: Runtime): (r: Result<Module>)
    ensures r.Ok? ==>
              && |r.value.globals| == |m.globals| + |defs|
              && r.value.globals[..|m.globals|] == m.globals
              && r.value == m.(globals := m.globals + r.value.globals[|m.globals|..])
              && Initializes(rt, m, defs, r.value.globals[|m.globals|..])
    decreases |defs|
  {
    if |defs| == 0 then
      assert m.globals[|m.globals|..] == [];
      Ok(m)
    else
      var value :- rt.evalConst(defs[0].initExpr, m);
      var g :- rt.newGlobal(defs[0].globalType, value);
      var m' := m.(globals := m.globals + [g]);
      var r := AddGlobals(m', defs[1..], rt);
      if r.Ok? then
        var rest := r.value.globals[|m'.globals|..];
        var all := r.value.globals[|m.globals|..];
        assert r.value.globals == m.globals + all;
        assert all == [g] + rest;
        assert all[0] == g && all[1..] == rest;
        assert m.(globals := m.globals + all[..0]) == m;
        InitializesCons(rt, m, defs, all);
        r
      else r
  }

  /** `gs` are the globals `defs` yield in order, each initializer evaluated
      against `m` extended by the globals before it. */
  ghost predicate Initializes(rt: Runtime, m: Module, defs: seq<GlobalDef>, gs: seq<Global>) {
    && |gs| == |defs|
    && forall k :: 0 <= k < |defs| ==> InitializedFrom(rt, m.(globals := m.globals + gs[..k]), defs[k], gs[k])
  }

  /** Definition `def` fails against `store` with `e`: the initializer's
      evaluation or the global's construction reports `e`. */
  ghost predicate FailsWith(rt: Runtime, store: Module, def: GlobalDef, e: Error) {
    match rt.evalConst(def.initExpr, store)
    case Err(e') => e' == e
    case Ok(v) => rt.newGlobal(def.globalType, v) == Err(e)
  }

  /** `Initializes` read from the front: the first definition is evaluated
      against `m`, the rest against `m` extended by the first global. */
  lemma InitializesCons(rt: Runtime, m: Module, defs: seq<GlobalDef>, gs: seq<Global>)
    requires |defs| > 0 && |gs| == |defs|
    ensures Initializes(rt, m, defs, gs) <==>
              InitializedFrom(rt, m, defs[0], gs[0]) &&
              Initializes(rt, m.(globals := m.globals + [gs[0]]), defs[1..], gs[1..])
  {
    var m' := m.(globals := m.globals + [gs[0]]);
    assert m.(globals := m.globals + gs[..0]) == m;
    forall k | 0 <= k < |defs| - 1
      ensures m'.(globals := m'.globals + gs[1..][..k]) == m.(globals := m.globals + gs[..k + 1])
      ensures defs[1..][k] == defs[k + 1] && gs[1..][k] == gs[k + 1]
    {
      assert m'.globals + gs[1..][..k] == m.globals + gs[..k + 1];
    }
    if InitializedFrom(rt, m, defs[0], gs[0]) && Initializes(rt, m', defs[1..], gs[1..]) {
      forall k | 0 <= k < |defs|
        ensures InitializedFrom(rt, m.(globals := m.globals + gs[..k]), defs[k], gs[k])
      {
        if k > 0 {
          assert InitializedFrom(rt, m'.(globals := m'.globals + gs[1..][..k - 1]), defs[1..][k - 1], gs[1..][k - 1]);
        }
      }
    }
  }

  /** When every definition yields its global, adding the globals succeeds
      and appends exactly those globals. */
  lemma {:induction false} AddGlobalsComplete(m: Module, defs: seq<GlobalDef>, rt: Runtime, gs: seq<Global>)
    requires Initializes(rt, m, defs, gs)
    ensures AddGlobals(m, defs, rt) == Ok(m.(globals := m.globals + gs))
    decreases |defs|
  {
    if |defs| == 0 {
      assert m.globals + gs == m.globals;
    } else {
      var m' := m.(globals := m.globals + [gs[0]]);
      InitializesCons(rt, m, defs, gs);
      AddGlobalsStep(m, defs, rt, gs[0]);
      AddGlobalsComplete(m', defs[1..], rt, gs[1..]);
      assert m'.globals + gs[1..] == m.globals + gs;
    }
  }

  /** A definition that yields its global hands the rest of the pass the
      module extended by that global. */
  lemma AddGlobalsStep(m: Module, defs: seq<GlobalDef>, rt: Runtime, g: Global)
    requires |defs| > 0 && InitializedFrom(rt, m, defs[0], g)
    ensures AddGlobals(m, defs, rt) == AddGlobals(m.(globals := m.globals + [g]), defs[1..], rt)
  {
  }

  /** When adding the globals fails, the definitions before some position
      yielded their globals and the definition at that position failed with
      the reported error: the first failing initializer decides the error. */
  lemma {:induction false} AddGlobalsFailure(m: Module, defs: seq<GlobalDef>, rt: Runtime)
    requires AddGlobals(m, defs, rt).Err?
    ensures exists gs :: |gs| < |defs| && Initializes(rt, m, defs[..|gs|], gs) &&
              FailsWith(rt, m.(globals := m.globals + gs), defs[|gs|], AddGlobals(m, defs, rt).error)
    decreases |defs|
  {
    var e := AddGlobals(m, defs, rt).error;
    assert m.(globals := m.globals + []) == m;
    var value := rt.evalConst(defs[0].initExpr, m);
    if value.Err? || rt.newGlobal(defs[0].globalType, value.value).Err? {
      assert Initializes(rt, m, defs[..0], []);
      assert FailsWith(rt, m.(globals := m.globals + []), defs[0], e);
    } else {
      var g := rt.newGlobal(defs[0].globalType, value.value).value;
      var m' := m.(globals := m.globals + [g]);
      assert AddGlobals(m', defs[1..], rt) == AddGlobals(m, defs, rt);
      AddGlobalsFailure(m', defs[1..], rt);
      var gs' :| |gs'| < |defs[1..]| && Initializes(rt, m', defs[1..][..|gs'|], gs') &&
                 FailsWith(rt, m'.(globals := m'.globals + gs'), defs[1..][|gs'|], e);
      var gs := [g] + gs';
      assert Initializes(rt, m, defs[..|gs|], gs) by {
        var prefix := defs[..|gs|];
        assert prefix[0] == defs[0] && prefix[1..] == defs[1..][..|gs'|];
        assert gs[0] == g && gs[1..] == gs';
        assert m.(globals := m.globals + gs[..0]) == m;
        assert InitializedFrom(rt, m, prefix[0], gs[0]);
        InitializesCons(rt, m, prefix, gs);
      }
      assert FailsWith(rt, m.(globals := m.globals + gs), defs[|gs|], e) by {
        assert m.globals + gs == m'.globals + gs';
        assert defs[|gs|] == defs[1..][|gs'|];
      }
    }
  }

  // ---------------------------------------------------------------- exports

  /** An export handle for position `idx` of an index space of `count`
      items, when that position exists. */
  function CollectSingleExport(idx: nat, count: nat): (r: Result<nat>)
    ensures r.Ok? <==> idx < count
    ensures r.Ok? ==> r.value == idx
    ensures r.Err? ==> r.error == InvalidExportIndex
  {
    if idx >= count then Err(InvalidExportIndex) else Ok(idx)
  }

  /** The export value an export description denotes. */
  function Target(desc: ExportDesc): ExportValue {
    match desc
    case FuncExport(idx) => FunctionRef(idx)
    case TableExport(idx) => TableRef(idx)
    case MemExport(idx) => MemoryRef(idx)
    case GlobalExport(idx) => GlobalRef(idx)
  }

  /** The export description refers to an existing item of `m`. */
  predicate ExportInRange(m: Module, desc: ExportDesc) {
    match desc
    case FuncExport(idx) => idx < |m.functions|
    case TableExport(idx) => idx < |m.tables|
    case MemExport(idx) => idx < |m.memories|
    case GlobalExport(idx) => idx < |m.globals|
  }

  function CollectExport(m: Module, desc: ExportDesc): (r: Result<ExportValue>)
    ensures r.Ok? <==> ExportInRange(m, desc)
    ensures r.Ok? ==> r.value == Target(desc)
    ensures r.Err? ==> r.error == InvalidExportIndex
  {
    match desc
    case FuncExport(idx) => var h :- CollectSingleExport(idx, |m.functions|); Ok(FunctionRef(h))
    case TableExport(idx) => var h :- CollectSingleExport(idx, |m.tables|); Ok(TableRef(h))
    case MemExport(idx) => var h :- CollectSingleExport(idx, |m.memories|); Ok(MemoryRef(h))
    case GlobalExport(idx) => var h :- CollectSingleExport(idx, |m.globals|); Ok(GlobalRef(h))
  }

  /** The description of the last export in `exports` named `name`. */
  function LastExport(exports: seq<Export>, name: string): Option<ExportDesc>
    decreases |exports|
  {
    if |exports| == 0 then None
    else if exports[|exports| - 1].name == name then Some(exports[|exports| - 1].desc)
    else LastExport(exports[..|exports| - 1], name)
  }

  lemma {:induction false} LastExportCons(e: Export, rest: seq<Export>, name: string)
    ensures LastExport([e] + rest, name) ==
              if LastExport(rest, name).Some? then LastExport(rest, name)
              else if e.name == name then Some(e.desc) else None
    decreases |rest|
  {
    var all := [e] + rest;
    if |rest| == 0 {
      assert all[..0] == [];
    } else {
      assert all[|all| - 1] == rest[|rest| - 1];
      assert all[..|all| - 1] == [e] + rest[..|rest| - 1];
      LastExportCons(e, rest[..|rest| - 1], name);
    }
  }

  /** Collects the exports in declaration order into the export map; an
      out-of-range index aborts, and a repeated name keeps the last export. */
  function CollectExports(m: Module, exports: seq<Export>): (r: Result<Module>)
    ensures r.Ok? <==> forall k :: 0 <= k < |exports| ==> ExportInRange(m, exports[k].desc)
    ensures r.Err? ==> r.error == InvalidExportIndex
    ensures r.Ok? ==> r.value == m.(exports := r.value.exports)
    ensures r.Ok? ==> forall name :: name in r.value.exports <==> name in m.exports || LastExport(exports, name).Some?
    ensures r.Ok? ==> forall name :: LastExport(exports, name).Some? ==> r.value.exports[name] == Target(LastExport(exports, name).value)
    ensures r.Ok? ==> forall name :: name in m.exports && LastExport(exports, name).None? ==> r.value.exports[name] == m.exports[name]
    decreases |exports|
  {
    if |exports| == 0 then Ok(m)
    else
      var v :- CollectExport(m, exports[0].desc);
      var m' := m.(exports := m.exports[exports[0].name := v]);
      LastExportHead(exports);
      InRangeHead(m, m', exports);
      CollectExports(m', exports[1..])
  }

  /** `LastExport` read from the front: a later export of the name wins
      over the first one. */
  lemma LastExportHead(exports: seq<Export>)
    requires |exports| > 0
    ensures forall name :: LastExport(exports, name) ==
              if LastExport(exports[1..], name).Some? then LastExport(exports[1..], name)
              else if exports[0].name == name then Some(exports[0].desc) else None
  {
    assert exports == [exports[0]] + exports[1..];
    forall name ensures LastExport(exports, name) ==
             if LastExport(exports[1..], name).Some? then LastExport(exports[1..], name)
             else if exports[0].name == name then Some(exports[0].desc) else None {
      LastExportCons(exports[0], exports[1..], name);
    }
  }

  /** All exports are in range exactly when the first is and the rest are,
      and only the export map differs between `m` and `m'`. */
  lemma InRangeHead(m: Module, m': Module, exports: seq<Export>)
    requires |exports| > 0
    requires m' == m.(exports := m'.exports)
    ensures (forall k :: 0 <= k < |exports| ==> ExportInRange(m, exports[k].desc)) <==>
              ExportInRange(m, exports[0].desc) && forall k :: 0 <= k < |exports| - 1 ==> ExportInRange(m', exports[1..][k].desc)
  {
    assert forall k :: 1 <= k < |exports| ==> exports[k] == exports[1..][k - 1];
    assert forall k :: 0 <= k < |exports| - 1 ==> exports[1..][k] == exports[k + 1];
  }

  // ------------------------------------------------- validation and segments

  /** At most one table and at most one memory. */
  function PreExecuteValidate(m: Module): (r: Result<()>)
    ensures r.Ok? <==> |m.tables| <= 1 && |m.memories| <= 1
    ensures |m.tables| > 1 ==> r == Err(TooManyTables)
    ensures |m.tables| <= 1 && |m.memories| > 1 ==> r == Err(TooManyMemories)
  {
    if |m.tables| > 1 then Err(TooManyTables)
    else if |m.memories| > 1 then Err(TooManyMemories)
    else Ok(())
  }

  /** Evaluates a segment's offset expression, which must produce an i32.
      A negative i32 has no offset to convert to. */
  function EvaluateOffsetExpression(m: Module, expr: Code, rt: Runtime): (r: Result<nat>)
    ensures r.Ok? <==>
              rt.evalConst(expr, m).Ok? && rt.evalConst(expr, m).value.I32Entry? && rt.evalConst(expr, m).value.i >= 0
    ensures r.Ok? ==> r.value as int == rt.evalConst(expr, m).value.i as int
    ensures rt.evalConst(expr, m).Ok? && !rt.evalConst(expr, m).value.I32Entry? ==> r == Err(OffsetTypeMismatch)
    ensures rt.evalConst(expr, m).Err? ==> r == Err(rt.evalConst(expr, m).error)
    ensures rt.evalConst(expr, m).Ok? && rt.evalConst(expr, m).value.I32Entry? && rt.evalConst(expr, m).value.i < 0 ==>
              r == Err(NegativeOffset)
  {
    var value :- rt.evalConst(expr, m);
    match value
    case I32Entry(i) => if i < 0 then Err(NegativeOffset) else Ok(i as nat)
    case _ => Err(OffsetTypeMismatch)
  }

  /** Looks up every function index of an element segment; the first index
      out of range aborts. */
  function LookupFunctions(m: Module, idxs: seq<nat>): (r: Result<seq<Callable>>)
    ensures r.Ok? <==> forall k :: 0 <= k < |idxs| ==> idxs[k] < |m.functions|
    ensures r.Err? ==> r.error == ElementFunctionIndexOutOfRange
    ensures r.Ok? ==> |r.value| == |idxs| && forall k :: 0 <= k < |idxs| ==> r.value[k] == m.functions[idxs[k]]
    decreases |idxs|
  {
    if |idxs| == 0 then Ok([])
    else if idxs[0] >= |m.functions| then Err(ElementFunctionIndexOutOfRange)
    else
      var rest := LookupFunctions(m, idxs[1..]);
      assert forall k :: 1 <= k < |idxs| ==> idxs[k] == idxs[1..][k - 1];
      assert rest.Ok? <== forall k :: 0 <= k < |idxs| ==> idxs[k] < |m.functions| by {
        assert forall k :: 0 <= k < |idxs| - 1 ==> idxs[1..][k] == idxs[k + 1];
      }
      var fs :- rest;
      Ok([m.functions[idxs[0]]] + fs)
  }

  /** Applies one element segment. Every lookup (table, offset, functions)
      happens before the table is written, so a failing segment writes
      nothing. */
  function InitializeTableElement(m: Module, e: Element, rt: Runtime): (r: Result<Module>)
    ensures r.Ok? <==>
              && e.tableIdx < |m.tables|
              && EvaluateOffsetExpression(m, e.offset, rt).Ok?
              && forall k :: 0 <= k < |e.funcIndices| ==> e.funcIndices[k] < |m.functions|
    ensures e.tableIdx >= |m.tables| ==> r == Err(ElementTableIndexOutOfRange)
    ensures e.tableIdx < |m.tables| && EvaluateOffsetExpression(m, e.offset, rt).Err? ==>
              r == Err(EvaluateOffsetExpression(m, e.offset, rt).error)
    ensures e.tableIdx < |m.tables| && EvaluateOffsetExpression(m, e.offset, rt).Ok? && r.Err? ==>
              r == Err(ElementFunctionIndexOutOfRange)
    ensures r.Ok? ==>
              && r.value == m.(tables := r.value.tables)
              && |r.value.tables| == |m.tables|
              && (forall j :: 0 <= j < |m.tables| && j != e.tableIdx ==> r.value.tables[j] == m.tables[j])
              && r.value.tables[e.tableIdx] ==
                   rt.setEntries(m.tables[e.tableIdx], EvaluateOffsetExpression(m, e.offset, rt).value,
                                 LookupFunctions(m, e.funcIndices).value)
  {
    if e.tableIdx >= |m.tables| then Err(ElementTableIndexOutOfRange)
    else
      var offset :- EvaluateOffsetExpression(m, e.offset, rt);
      var functions :- LookupFunctions(m, e.funcIndices);
      Ok(m.(tables := m.tables[e.tableIdx := rt.setEntries(m.tables[e.tableIdx], offset, functions)]))
  }

  /** The store after an initialisation pass, and the error that stopped it.
      Tables and memories may be shared with the host (imported ones are),
      so what was written before a failure stays visible. */
  datatype Attempt = Attempt(state: Module, failure: Option<Error>)

  /** Only the contents of tables and memories may differ between `m` and
      `m'`: the index spaces keep their sizes and everything else is equal. */
  predicate SameLayout(m: Module, m': Module) {
    && m'.functions == m.functions
    && |m'.tables| == |m.tables|
    && |m'.memories| == |m.memories|
    && m'.globals == m.globals
    && m'.exports == m.exports
    && m'.funcTypes == m.funcTypes
  }

  /** Applies the element segments in order, stopping at the first failure. */
  function InitializeTableElements(m: Module, elems: seq<Element>, rt: Runtime): (a: Attempt)
    ensures SameLayout(m, a.state) && a.state.memories == m.memories
    ensures |elems| == 0 ==> a == Attempt(m, None)
    decreases |elems|
  {
    if |elems| == 0 then Attempt(m, None)
    else match InitializeTableElement(m, elems[0], rt)
      case Err(e) => Attempt(m, Some(e))
      case Ok(m') => InitializeTableElements(m', elems[1..], rt)
  }

  /** Applies one data segment through the memory's own `set_data`. */
  function InitializeMemoryData(m: Module, d: Data, rt: Runtime): (r: Result<Module>)
    ensures r.Ok? <==>
              && d.memIdx < |m.memories|
              && EvaluateOffsetExpression(m, d.offset, rt).Ok?
              && rt.setData(m.memories[d.memIdx], EvaluateOffsetExpression(m, d.offset, rt).value, d.bytes).Ok?
    ensures d.memIdx >= |m.memories| ==> r == Err(DataMemoryIndexOutOfRange)
    ensures d.memIdx < |m.memories| && EvaluateOffsetExpression(m, d.offset, rt).Err? ==>
              r == Err(EvaluateOffsetExpression(m, d.offset, rt).error)
    ensures d.memIdx < |m.memories| && EvaluateOffsetExpression(m, d.offset, rt).Ok? &&
            rt.setData(m.memories[d.memIdx], EvaluateOffsetExpression(m, d.offset, rt).value, d.bytes).Err? ==>
              r == Err(rt.setData(m.memories[d.memIdx], EvaluateOffsetExpression(m, d.offset, rt).value, d.bytes).error)
    ensures r.Ok? ==>
              r.value == m.(memories := m.memories[d.memIdx := rt.setData(m.memories[d.memIdx], EvaluateOffsetExpression(m, d.offset, rt).value, d.bytes).value])
  {
    if d.memIdx >= |m.memories| then Err(DataMemoryIndexOutOfRange)
    else
      var offset :- EvaluateOffsetExpression(m, d.offset, rt);
      var memory :- rt.setData(m.memories[d.memIdx], offset, d.bytes);
      Ok(m.(memories := m.memories[d.memIdx := memory]))
  }

  /** Applies the data segments in order, stopping at the first failure. */
  function InitializeMemory(m: Module, data: seq<Data>, rt: Runtime): (a: Attempt)
    ensures SameLayout(m, a.state) && a.state.tables == m.tables
    ensures |data| == 0 ==> a == Attempt(m, None)
    decreases |data|
  {
    if |data| == 0 then Attempt(m, None)
    else match InitializeMemoryData(m, data[0], rt)
      case Err(e) => Attempt(m, Some(e))
      case Ok(m') => InitializeMemory(m', data[1..], rt)
  }

  // --------------------------------------------------------------- pipeline

  /** The number of table imports among `imports`. */
  function CountTableImports(imports: seq<Import>): nat
    decreases |imports|
  {
    if |imports| == 0 then 0
    else (if imports[0].desc.TableImport? then 1 else 0) + CountTableImports(imports[1..])
  }

  /** The number of memory imports among `imports`. */
  function CountMemImports(imports: seq<Import>): nat
    decreases |imports|
  {
    if |imports| == 0 then 0
    else (if imports[0].desc.MemImport? then 1 else 0) + CountMemImports(imports[1..])
  }

  /** The tables the raw module brings: imported ones and its own. */
  function NumTables(raw: RawModule): nat {
    CountTableImports(raw.imports) + |raw.tables|
  }

  /** The memories the raw module brings: imported ones and its own. */
  function NumMemories(raw: RawModule): nat {
    CountMemImports(raw.imports) + |raw.mems|
  }

  /** Every defined function's type index is in range. */
  predicate FunctionTypesValid(raw: RawModule) {
    forall k :: 0 <= k < |raw.typeIdx| && k < |raw.funcs| ==> raw.typeIdx[k] < |raw.types|
  }

  /** The index spaces before the globals: the imports, then the module's
      own functions, tables and memories. An import that fails to resolve
      is reported before a bad function type index. */
  function DeclareItems(raw: RawModule, resolver: Resolver, rt: Runtime): (r: Result<Module>)
    ensures r.Ok? <==> AllResolve(raw.imports, raw.types, resolver) && FunctionTypesValid(raw)
    ensures !AllResolve(raw.imports, raw.types, resolver) ==>
              r == Err(ResolveImports(EmptyModule, raw.imports, raw.types, resolver).error)
    ensures AllResolve(raw.imports, raw.types, resolver) && !FunctionTypesValid(raw) ==> r == Err(InvalidFunctionTypeIndex)
    ensures r.Ok? ==> r.value.exports == map[] && r.value.funcTypes == []
  {
    var m1 :- ResolveImports(EmptyModule, raw.imports, raw.types, resolver);
    var m2 :- AddFunctions(m1, Zip(raw.typeIdx, raw.funcs), raw.types);
    Ok(AddMemories(AddTables(m2, raw.tables, rt), raw.mems, rt))
  }

  /** The module's index spaces, export map and function types. The stages
      report in order: imports and function types, then the globals'
      initializers, then the export indices. */
  function BuildStore(raw: RawModule, resolver: Resolver, rt: Runtime): (r: Result<Module>)
    ensures DeclareItems(raw, resolver, rt).Err? ==> r == Err(DeclareItems(raw, resolver, rt).error)
    ensures DeclareItems(raw, resolver, rt).Ok? ==>
              var globals := AddGlobals(DeclareItems(raw, resolver, rt).value, raw.globals, rt);
              && (globals.Err? ==> r == Err(globals.error))
              && (globals.Ok? ==>
                    && (r.Ok? <==> forall k :: 0 <= k < |raw.exports| ==> ExportInRange(globals.value, raw.exports[k].desc))
                    && (r.Err? ==> r.error == InvalidExportIndex))
    ensures r.Ok? ==> AllResolve(raw.imports, raw.types, resolver)
    ensures r.Ok? ==> r.value.funcTypes == raw.types
    ensures r.Ok? ==> forall k :: 0 <= k < |raw.exports| ==> ExportInRange(r.value, raw.exports[k].desc)
  {
    var m4 :- DeclareItems(raw, resolver, rt);
    var m5 :- AddGlobals(m4, raw.globals, rt);
    var m6 :- CollectExports(m5, raw.exports);
    Ok(m6.(funcTypes := raw.types))
  }

  /** Validation, then the element segments, then the data segments. It
      succeeds exactly when there is at most one table and one memory and no
      segment fails; the tables then hold what the element segments wrote
      and the memories what the data segments wrote. */
  function Initialize(m: Module, raw: RawModule, rt: Runtime): (r: Result<Module>)
    ensures var elems := InitializeTableElements(m, raw.elem, rt);
            var data := InitializeMemory(elems.state, raw.data, rt);
            && (r.Ok? <==> |m.tables| <= 1 && |m.memories| <= 1 && elems.failure.None? && data.failure.None?)
            && (PreExecuteValidate(m).Err? ==> r == Err(PreExecuteValidate(m).error))
            && (PreExecuteValidate(m).Ok? && elems.failure.Some? ==> r == Err(elems.failure.value))
            && (PreExecuteValidate(m).Ok? && elems.failure.None? && data.failure.Some? ==> r == Err(data.failure.value))
            && (r.Ok? ==> r.value.tables == elems.state.tables && r.value.memories == data.state.memories)
    ensures r.Ok? ==> SameLayout(m, r.value)
  {
    var _ :- PreExecuteValidate(m);
    var elems := InitializeTableElements(m, raw.elem, rt);
    if elems.failure.Some? then Err(elems.failure.value)
    else
      var data := InitializeMemory(elems.state, raw.data, rt);
      if data.failure.Some? then Err(data.failure.value)
      else Ok(data.state)
  }

  /** Runs the start function, if there is one, on the initialised module. */
  function RunStart(m: Module, start: Option<nat>, rt: Runtime): (r: Result<Module>)
    ensures start.None? ==> r == Ok(m)
    ensures start.Some? && start.value >= |m.functions| ==> r == Err(StartFunctionNotFound)
    ensures start.Some? && start.value < |m.functions| ==> r == rt.call(m.functions[start.value], m)
  {
    match start
    case None => Ok(m)
    case Some(idx) =>
      if idx >= |m.functions| then Err(StartFunctionNotFound)
      else rt.call(m.functions[idx], m)
  }

  /** Resolves a raw module into a module ready to run. A resolved module
      was built and initialised, has at most one table and one memory, and
      its start index, if any, names a function; without a start function
      it is the initialised module. */
  function ResolveRawModule(raw: RawModule, resolver: Resolver, rt: Runtime): (r: Result<Module>)
    ensures r.Ok? ==>
              && BuildStore(raw, resolver, rt).Ok?
              && Initialize(BuildStore(raw, resolver, rt).value, raw, rt).Ok?
              && |BuildStore(raw, resolver, rt).value.tables| <= 1
              && |BuildStore(raw, resolver, rt).value.memories| <= 1
              && (raw.start.Some? ==> raw.start.value < |BuildStore(raw, resolver, rt).value.functions|)
              && (raw.start.None? ==> r == Initialize(BuildStore(raw, resolver, rt).value, raw, rt))
  {
    var built :- BuildStore(raw, resolver, rt);
    var initialized :- Initialize(built, raw, rt);
    RunStart(initialized, raw.start, rt)
  }
}

=== FILE: resolve_props.dfy ===
/**
  Properties of module resolution as a whole: the layout of the index spaces
  it builds, where it rejects a second table or memory, the order of its
  stages, what a failing segment leaves behind, and that every export still
  names an existing item once the module is initialised.
 */
module ResolveProps {
  import opened Base
  import opened Store
  import opened Resolve

  // ------------------------------------------------------------- imports

  lemma AllResolveTail(imports: seq<Import>, types: seq<FuncType>, resolver: Resolver)
    requires |imports| > 0 && AllResolve(imports, types, resolver)
    ensures AllResolve(imports[1..], types, resolver)
    ensures Resolutions(imports, types, resolver) ==
              [ResolveImport(imports[0], types, resolver).value] + Resolutions(imports[1..], types, resolver)
  {
    forall i | 0 <= i < |imports| - 1 ensures ResolveImport(imports[1..][i], types, resolver).Ok? {
      assert imports[1..][i] == imports[i + 1];
    }
  }

  /** The error of import resolution is the error of the first import that
      fails: every import before it resolved. */
  lemma {:induction false} ResolveImportsFirstError(m: Module, imports: seq<Import>, types: seq<FuncType>, resolver: Resolver)
    requires ResolveImports(m, imports, types, resolver).Err?
    ensures exists i :: 0 <= i < |imports| &&
              ResolveImport(imports[i], types, resolver) == Err(ResolveImports(m, imports, types, resolver).error) &&
              forall j :: 0 <= j < i ==> ResolveImport(imports[j], types, resolver).Ok?
    decreases |imports|
  {
    var e := ResolveImports(m, imports, types, resolver).error;
    var first := ResolveImport(imports[0], types, resolver);
    if first.Err? {
      assert ResolveImport(imports[0], types, resolver) == Err(e);
    } else {
      var m' := Push(m, first.value);
      assert ResolveImports(m, imports, types, resolver) == ResolveImports(m', imports[1..], types, resolver);
      ResolveImportsFirstError(m', imports[1..], types, resolver);
      var i :| 0 <= i < |imports[1..]| &&
                ResolveImport(imports[1..][i], types, resolver) == Err(e) &&
                forall j :: 0 <= j < i ==> ResolveImport(imports[1..][j], types, resolver).Ok?;
      assert imports[1..][i] == imports[i + 1];
      forall j | 0 <= j < i + 1 ensures ResolveImport(imports[j], types, resolver).Ok? {
        if j > 0 {
          assert imports[j] == imports[1..][j - 1];
        }
      }
    }
  }

  /** Each table import contributes exactly one table to the table index
      space, and likewise for memories. */
  lemma {:induction false} ImportCounts(imports: seq<Import>, types: seq<FuncType>, resolver: Resolver)
    requires AllResolve(imports, types, resolver)
    ensures |TablesOf(Resolutions(imports, types, resolver))| == CountTableImports(imports)
    ensures |MemoriesOf(Resolutions(imports, types, resolver))| == CountMemImports(imports)
    decreases |imports|
  {
    if |imports| > 0 {
      AllResolveTail(imports, types, resolver);
      var res := ResolveImport(imports[0], types, resolver).value;
      OfCons(res, Resolutions(imports[1..], types, resolver));
      ImportCounts(imports[1..], types, resolver);
    }
  }

  // ------------------------------------------------------------ the store

  /** A built store keeps the index spaces the declaration stage produced,
      except for the globals, which the global stage appends. */
  lemma BuildStoreStages(raw: RawModule, resolver: Resolver, rt: Runtime)
    requires BuildStore(raw, resolver, rt).Ok?
    ensures DeclareItems(raw, resolver, rt).Ok?
    ensures AddGlobals(DeclareItems(raw, resolver, rt).value, raw.globals, rt).Ok?
    ensures var declared := DeclareItems(raw, resolver, rt).value;
            var withGlobals := AddGlobals(declared, raw.globals, rt).value;
            var m := BuildStore(raw, resolver, rt).value;
            && m.functions == declared.functions
            && m.tables == declared.tables
            && m.memories == declared.memories
            && m.globals == withGlobals.globals
            && CollectExports(withGlobals, raw.exports).Ok?
            && m.exports == CollectExports(withGlobals, raw.exports).value.exports
            && withGlobals.exports == map[]
  {
  }

  lemma DeclaredFunctions(raw: RawModule, resolver: Resolver, rt: Runtime)
    requires DeclareItems(raw, resolver, rt).Ok?
    ensures var m := DeclareItems(raw, resolver, rt).value;
            var imported := FunctionsOf(Resolutions(raw.imports, raw.types, resolver));
            var defined := Zip(raw.typeIdx, raw.funcs);
            && |m.functions| == |imported| + |defined|
            && m.functions[..|imported|] == imported
            && forall k :: 0 <= k < |defined| ==>
                 raw.typeIdx[k] < |raw.types| &&
                 m.functions[|imported| + k] == WasmExprCallable(raw.types[raw.typeIdx[k]], raw.funcs[k])
  {
    var m1 := ResolveImports(EmptyModule, raw.imports, raw.types, resolver).value;
    var defined := Zip(raw.typeIdx, raw.funcs);
    var m2 := AddFunctions(m1, defined, raw.types).value;
    forall k | 0 <= k < |defined|
      ensures raw.typeIdx[k] < |raw.types|
      ensures m2.functions[|m1.functions| + k] == WasmExprCallable(raw.types[raw.typeIdx[k]], raw.funcs[k])
    {
      assert defined[k] == (raw.typeIdx[k], raw.funcs[k]);
    }
  }

  lemma DeclaredTables(raw: RawModule, resolver: Resolver, rt: Runtime)
    requires DeclareItems(raw, resolver, rt).Ok?
    ensures var m := DeclareItems(raw, resolver, rt).value;
            var imported := TablesOf(Resolutions(raw.imports, raw.types, resolver));
            && |m.tables| == |imported| + |raw.tables|
            && m.tables[..|imported|] == imported
            && forall k :: 0 <= k < |raw.tables| ==> m.tables[|imported| + k] == rt.newTable(raw.tables[k])
  {
    var m1 := ResolveImports(EmptyModule, raw.imports, raw.types, resolver).value;
    var m2 := AddFunctions(m1, Zip(raw.typeIdx, raw.funcs), raw.types).value;
    var m3 := AddTables(m2, raw.tables, rt);
    assert AddMemories(m3, raw.mems, rt).tables == m3.tables;
  }

  lemma DeclaredMemories(raw: RawModule, resolver: Resolver, rt: Runtime)
    requires DeclareItems(raw, resolver, rt).Ok?
    ensures var m := DeclareItems(raw, resolver, rt).value;
            var imported := MemoriesOf(Resolutions(raw.imports, raw.types, resolver));
            && |m.memories| == |imported| + |raw.mems|
            && m.memories[..|imported|] == imported
            && forall k :: 0 <= k < |raw.mems| ==> m.memories[|imported| + k] == rt.newMemory(raw.mems[k])
  {
    var m1 := ResolveImports(EmptyModule, raw.imports, raw.types, resolver).value;
    var m2 := AddFunctions(m1, Zip(raw.typeIdx, raw.funcs), raw.types).value;
    var m3 := AddTables(m2, raw.tables, rt);
    assert m3.memories == m1.memories;
    assert DeclareItems(raw, resolver, rt).value == AddMemories(m3, raw.mems, rt);
  }

  lemma DeclaredGlobals(raw: RawModule, resolver: Resolver, rt: Runtime)
    requires DeclareItems(raw, resolver, rt).Ok?
    ensures DeclareItems(raw, resolver, rt).value.globals == GlobalsOf(Resolutions(raw.imports, raw.types, resolver))
  {
    var m1 := ResolveImports(EmptyModule, raw.imports, raw.types, resolver).value;
    var m2 := AddFunctions(m1, Zip(raw.typeIdx, raw.funcs), raw.types).value;
    var m3 := AddTables(m2, raw.tables, rt);
    assert AddMemories(m3, raw.mems, rt).globals == m1.globals;
  }

  /** The function index space resolution builds: the imported functions
      in declaration order, then the module's own, each with the type its
      type index names. */
  lemma BuildStoreFunctions(raw: RawModule, resolver: Resolver, rt: Runtime)
    requires BuildStore(raw, resolver, rt).Ok?
    ensures var m := BuildStore(raw, resolver, rt).value;
            var imported := FunctionsOf(Resolutions(raw.imports, raw.types, resolver));
            var defined := Zip(raw.typeIdx, raw.funcs);
            && |m.functions| == |imported| + |defined|
            && m.functions[..|imported|] == imported
            && forall k :: 0 <= k < |defined| ==>
                 raw.typeIdx[k] < |raw.types| &&
                 m.functions[|imported| + k] == WasmExprCallable(raw.types[raw.typeIdx[k]], raw.funcs[k])
  {
    BuildStoreStages(raw, resolver, rt);
    DeclaredFunctions(raw, resolver, rt);
  }

  /** The table index space resolution builds: the imported tables in
      declaration order, then one fresh table per own table type. */
  lemma BuildStoreTables(raw: RawModule, resolver: Resolver, rt: Runtime)
    requires BuildStore(raw, resolver, rt).Ok?
    ensures var m := BuildStore(raw, resolver, rt).value;
            var imported := TablesOf(Resolutions(raw.imports, raw.types, resolver));
            && |m.tables| == |imported| + |raw.tables|
            && m.tables[..|imported|] == imported
            && forall k :: 0 <= k < |raw.tables| ==> m.tables[|imported| + k] == rt.newTable(raw.tables[k])
  {
    BuildStoreStages(raw, resolver, rt);
    DeclaredTables(raw, resolver, rt);
  }

  /** The memory index space resolution builds: the imported memories in
      declaration order, then one fresh memory per own memory type. */
  lemma BuildStoreMemories(raw: RawModule, resolver: Resolver, rt: Runtime)
    requires BuildStore(raw, resolver, rt).Ok?
    ensures var m := BuildStore(raw, resolver, rt).value;
            var imported := MemoriesOf(Resolutions(raw.imports, raw.types, resolver));
            && |m.memories| == |imported| + |raw.mems|
            && m.memories[..|imported|] == imported
            && forall k :: 0 <= k < |raw.mems| ==> m.memories[|imported| + k] == rt.newMemory(raw.mems[k])
  {
    BuildStoreStages(raw, resolver, rt);
    DeclaredMemories(raw, resolver, rt);
  }

  /** The global index space starts with the imported globals, the module's
      own follow; the export map holds one entry per exported name, for the
      last export of that name. */
  lemma BuildStoreGlobalsAndExports(raw: RawModule, resolver: Resolver, rt: Runtime)
    requires BuildStore(raw, resolver, rt).Ok?
    ensures var m := BuildStore(raw, resolver, rt).value;
            var rs := Resolutions(raw.imports, raw.types, resolver);
            && |m.globals| == |GlobalsOf(rs)| + |raw.globals|
            && m.globals[..|GlobalsOf(rs)|] == GlobalsOf(rs)
            && (forall name :: name in m.exports <==> LastExport(raw.exports, name).Some?)
            && (forall name :: name in m.exports ==> m.exports[name] == Target(LastExport(raw.exports, name).value))
  {
    BuildStoreStages(raw, resolver, rt);
    DeclaredGlobals(raw, resolver, rt);
  }

  /** Validation passes exactly when the raw module brings at most one table
      and at most one memory, counting imported ones. */
  lemma ValidationCounts(raw: RawModule, resolver: Resolver, rt: Runtime)
    requires BuildStore(raw, resolver, rt).Ok?
    ensures var m := BuildStore(raw, resolver, rt).value;
            && |m.tables| == NumTables(raw)
            && |m.memories| == NumMemories(raw)
            && (PreExecuteValidate(m).Ok? <==> NumTables(raw) <= 1 && NumMemories(raw) <= 1)
  {
    BuildStoreTables(raw, resolver, rt);
    BuildStoreMemories(raw, resolver, rt);
    ImportCounts(raw.imports, raw.types, resolver);
  }

  /** A second table is rejected before any segment is applied or the start
      function runs: the result is that error whatever the segments are. */
  lemma TooManyTablesRejected(raw: RawModule, resolver: Resolver, rt: Runtime)
    requires BuildStore(raw, resolver, rt).Ok?
    requires NumTables(raw) > 1
    ensures ResolveRawModule(raw, resolver, rt) == Err(TooManyTables)
  {
    ValidationCounts(raw, resolver, rt);
  }

  /** With at most one table, a second memory is rejected before any segment
      is applied or the start function runs. */
  lemma TooManyMemoriesRejected(raw: RawModule, resolver: Resolver, rt: Runtime)
    requires BuildStore(raw, resolver, rt).Ok?
    requires NumTables(raw) <= 1 && NumMemories(raw) > 1
    ensures ResolveRawModule(raw, resolver, rt) == Err(TooManyMemories)
  {
    ValidationCounts(raw, resolver, rt);
  }

  // ------------------------------------------------------- stage ordering

  /** The stages before the start function never call a function: the
      store is the same whatever the interpreter does. */
  lemma {:induction false} AddGlobalsIgnoresCall(m: Module, defs: seq<GlobalDef>, rt: Runtime, c: (Callable, Module) -> Result<Module>)
    ensures AddGlobals(m, defs, rt.(call := c)) == AddGlobals(m, defs, rt)
    decreases |defs|
  {
    if |defs| > 0 {
      var value := rt.evalConst(defs[0].initExpr, m);
      if value.Ok? && rt.newGlobal(defs[0].globalType, value.value).Ok? {
        var g := rt.newGlobal(defs[0].globalType, value.value).value;
        AddGlobalsIgnoresCall(m.(globals := m.globals + [g]), defs[1..], rt, c);
      }
    }
  }

  lemma {:induction false} AddTablesIgnoresCall(m: Module, tableTypes: seq<TableType>, rt: Runtime, c: (Callable, Module) -> Result<Module>)
    ensures AddTables(m, tableTypes, rt.(call := c)) == AddTables(m, tableTypes, rt)
    decreases |tableTypes|
  {
    if |tableTypes| > 0 {
      AddTablesIgnoresCall(m.(tables := m.tables + [rt.newTable(tableTypes[0])]), tableTypes[1..], rt, c);
    }
  }

  lemma {:induction false} AddMemoriesIgnoresCall(m: Module, memTypes: seq<MemType>, rt: Runtime, c: (Callable, Module) -> Result<Module>)
    ensures AddMemories(m, memTypes, rt.(call := c)) == AddMemories(m, memTypes, rt)
    decreases |memTypes|
  {
    if |memTypes| > 0 {
      AddMemoriesIgnoresCall(m.(memories := m.memories + [rt.newMemory(memTypes[0])]), memTypes[1..], rt, c);
    }
  }

  lemma {:induction false} ElementsIgnoreCall(m: Module, elems: seq<Element>, rt: Runtime, c: (Callable, Module) -> Result<Module>)
    ensures InitializeTableElements(m, elems, rt.(call := c)) == InitializeTableElements(m, elems, rt)
    decreases |elems|
  {
    if |elems| > 0 {
      assert InitializeTableElement(m, elems[0], rt.(call := c)) == InitializeTableElement(m, elems[0], rt);
      match InitializeTableElement(m, elems[0], rt)
      case Err(_) =>
      case Ok(m') => ElementsIgnoreCall(m', elems[1..], rt, c);
    }
  }

  lemma {:induction false} DataIgnoresCall(m: Module, data: seq<Data>, rt: Runtime, c: (Callable, Module) -> Result<Module>)
    ensures InitializeMemory(m, data, rt.(call := c)) == InitializeMemory(m, data, rt)
    decreases |data|
  {
    if |data| > 0 {
      assert InitializeMemoryData(m, data[0], rt.(call := c)) == InitializeMemoryData(m, data[0], rt);
      match InitializeMemoryData(m, data[0], rt)
      case Err(_) =>
      case Ok(m') => DataIgnoresCall(m', data[1..], rt, c);
    }
  }

  /** Building the store reads neither the segments nor the start index,
      and calls no function. */
  lemma BuildStoreFrame(raw: RawModule, resolver: Resolver, rt: Runtime,
                        elem: seq<Element>, data: seq<Data>, start: Option<nat>, c: (Callable, Module) -> Result<Module>)
    ensures BuildStore(raw.(elem := elem, data := data, start := start), resolver, rt.(call := c)) == BuildStore(raw, resolver, rt)
  {
    var rt' := rt.(call := c);
    var m1 := ResolveImports(EmptyModule, raw.imports, raw.types, resolver);
    if m1.Ok? {
      var m2 := AddFunctions(m1.value, Zip(raw.typeIdx, raw.funcs), raw.types);
      if m2.Ok? {
        AddTablesIgnoreCallThenMemories(m2.value, raw.tables, raw.mems, rt, c);
        var m4 := AddMemories(AddTables(m2.value, raw.tables, rt), raw.mems, rt);
        AddGlobalsIgnoresCall(m4, raw.globals, rt, c);
      }
    }
  }

  lemma AddTablesIgnoreCallThenMemories(m: Module, tableTypes: seq<TableType>, memTypes: seq<MemType>, rt: Runtime,
                                        c: (Callable, Module) -> Result<Module>)
    ensures AddMemories(AddTables(m, tableTypes, rt.(call := c)), memTypes, rt.(call := c)) ==
              AddMemories(AddTables(m, tableTypes, rt), memTypes, rt)
  {
    AddTablesIgnoresCall(m, tableTypes, rt, c);
    AddMemoriesIgnoresCall(AddTables(m, tableTypes, rt), memTypes, rt, c);
  }

  /** When the store cannot be built, that error is the result, whatever
      the segments and the start function are. */
  lemma BuildFailureDecides(raw: RawModule, resolver: Resolver, rt: Runtime,
                            elem: seq<Element>, data: seq<Data>, start: Option<nat>, c: (Callable, Module) -> Result<Module>)
    requires BuildStore(raw, resolver, rt).Err?
    ensures ResolveRawModule(raw.(elem := elem, data := data, start := start), resolver, rt.(call := c)) ==
              Err(BuildStore(raw, resolver, rt).error)
  {
    BuildStoreFrame(raw, resolver, rt, elem, data, start, c);
  }

  /** When validation fails, its error is the result, whatever the segments
      and the start function are: no segment is applied before it. */
  lemma ValidationFailureDecides(raw: RawModule, resolver: Resolver, rt: Runtime,
                                 elem: seq<Element>, data: seq<Data>, start: Option<nat>, c: (Callable, Module) -> Result<Module>)
    requires BuildStore(raw, resolver, rt).Ok?
    requires PreExecuteValidate(BuildStore(raw, resolver, rt).value).Err?
    ensures ResolveRawModule(raw.(elem := elem, data := data, start := start), resolver, rt.(call := c)) ==
              Err(PreExecuteValidate(BuildStore(raw, resolver, rt).value).error)
  {
    BuildStoreFrame(raw, resolver, rt, elem, data, start, c);
  }

  /** When an element segment fails, its error is the result, whatever the
      data segments and the start function are: the data segments come
      after the element segments. */
  lemma ElementFailureDecides(raw: RawModule, resolver: Resolver, rt: Runtime,
                              data: seq<Data>, start: Option<nat>, c: (Callable, Module) -> Result<Module>)
    requires BuildStore(raw, resolver, rt).Ok?
    requires PreExecuteValidate(BuildStore(raw, resolver, rt).value).Ok?
    requires InitializeTableElements(BuildStore(raw, resolver, rt).value, raw.elem, rt).failure.Some?
    ensures ResolveRawModule(raw.(data := data, start := start), resolver, rt.(call := c)) ==
              Err(InitializeTableElements(BuildStore(raw, resolver, rt).value, raw.elem, rt).failure.value)
  {
    BuildStoreFrame(raw, resolver, rt, raw.elem, data, start, c);
    assert raw.(data := data, start := start) == raw.(elem := raw.elem, data := data, start := start);
    ElementsIgnoreCall(BuildStore(raw, resolver, rt).value, raw.elem, rt, c);
  }

  /** When a data segment fails, its error is the result and the start
      function does not run. */
  lemma DataFailureDecides(raw: RawModule, resolver: Resolver, rt: Runtime,
                           start: Option<nat>, c: (Callable, Module) -> Result<Module>)
    requires BuildStore(raw, resolver, rt).Ok?
    requires PreExecuteValidate(BuildStore(raw, resolver, rt).value).Ok?
    requires InitializeTableElements(BuildStore(raw, resolver, rt).value, raw.elem, rt).failure.None?
    requires InitializeMemory(InitializeTableElements(BuildStore(raw, resolver, rt).value, raw.elem, rt).state, raw.data, rt).failure.Some?
    ensures ResolveRawModule(raw.(start := start), resolver, rt.(call := c)) ==
              Err(InitializeMemory(InitializeTableElements(BuildStore(raw, resolver, rt).value, raw.elem, rt).state, raw.data, rt).failure.value)
  {
    var built := BuildStore(raw, resolver, rt).value;
    BuildStoreFrame(raw, resolver, rt, raw.elem, raw.data, start, c);
    assert raw.(start := start) == raw.(elem := raw.elem, data := raw.data, start := start);
    ElementsIgnoreCall(built, raw.elem, rt, c);
    DataIgnoresCall(InitializeTableElements(built, raw.elem, rt).state, raw.data, rt, c);
  }

  /** A resolved module brings at most one table and one memory, counting
      imported ones. */
  lemma ResolvedCounts(raw: RawModule, resolver: Resolver, rt: Runtime)
    requires ResolveRawModule(raw, resolver, rt).Ok?
    ensures NumTables(raw) <= 1 && NumMemories(raw) <= 1
  {
    ValidationCounts(raw, resolver, rt);
  }

  /** The start function runs exactly once, on the initialised module, and
      is looked up in the function index space resolution built. */
  lemma StartRunsOnce(raw: RawModule, resolver: Resolver, rt: Runtime)
    requires BuildStore(raw, resolver, rt).Ok?
    requires Initialize(BuildStore(raw, resolver, rt).value, raw, rt).Ok?
    ensures var built := BuildStore(raw, resolver, rt).value;
            var m := Initialize(built, raw, rt).value;
            var r := ResolveRawModule(raw, resolver, rt);
            && m.functions == built.functions
            && (raw.start.None? ==> r == Ok(m))
            && (raw.start.Some? && raw.start.value >= |built.functions| ==> r == Err(StartFunctionNotFound))
            && (raw.start.Some? && raw.start.value < |built.functions| ==> r == rt.call(built.functions[raw.start.value], m))
  {
  }

  // --------------------------------------------------- segment application

  /** Applying a list of element segments is applying its first part and
      then, unless that failed, the rest. */
  lemma {:induction false} ElementsSplit(m: Module, a: seq<Element>, b: seq<Element>, rt: Runtime)
    ensures InitializeTableElements(m, a + b, rt) ==
              var x := InitializeTableElements(m, a, rt);
              if x.failure.Some? then x else InitializeTableElements(x.state, b, rt)
    decreases |a|
  {
    if |a| == 0 {
      assert a + b == b;
    } else {
      assert (a + b)[0] == a[0] && (a + b)[1..] == a[1..] + b;
      match InitializeTableElement(m, a[0], rt)
      case Err(_) =>
      case Ok(m') => ElementsSplit(m', a[1..], b, rt);
    }
  }

  /** A single element segment is applied exactly as on its own: on success
      the pass continues from the segment's result, on failure it stops at the
      unchanged module with the segment's error. */
  lemma ElementsSingle(m: Module, e: Element, rt: Runtime)
    ensures InitializeTableElements(m, [e], rt) ==
              if InitializeTableElement(m, e, rt).Ok? then Attempt(InitializeTableElement(m, e, rt).value, None)
              else Attempt(m, Some(InitializeTableElement(m, e, rt).error))
  {
    assert [e][0] == e && [e][1..] == [];
  }

  /** When element segment `k` is the first to fail, the tables are left
      exactly as the segments before it wrote them: the failing segment and
      every later one write nothing. */
  lemma ElementFailureKeepsPrefix(m: Module, elems: seq<Element>, k: nat, rt: Runtime)
    requires k < |elems|
    requires InitializeTableElements(m, elems[..k], rt).failure.None?
    requires InitializeTableElement(InitializeTableElements(m, elems[..k], rt).state, elems[k], rt).Err?
    ensures var before := InitializeTableElements(m, elems[..k], rt).state;
            InitializeTableElements(m, elems, rt) ==
              Attempt(before, Some(InitializeTableElement(before, elems[k], rt).error))
  {
    assert elems == elems[..k] + elems[k..];
    ElementsSplit(m, elems[..k], elems[k..], rt);
    assert elems[k..][0] == elems[k];
  }

  /** Applying a list of data segments is applying its first part and then,
      unless that failed, the rest. */
  lemma {:induction false} DataSplit(m: Module, a: seq<Data>, b: seq<Data>, rt: Runtime)
    ensures InitializeMemory(m, a + b, rt) ==
              var x := InitializeMemory(m, a, rt);
              if x.failure.Some? then x else InitializeMemory(x.state, b, rt)
    decreases |a|
  {
    if |a| == 0 {
      assert a + b == b;
    } else {
      assert (a + b)[0] == a[0] && (a + b)[1..] == a[1..] + b;
      match InitializeMemoryData(m, a[0], rt)
      case Err(_) =>
      case Ok(m') => DataSplit(m', a[1..], b, rt);
    }
  }

  /** A single data segment is applied exactly as on its own. */
  lemma DataSingle(m: Module, d: Data, rt: Runtime)
    ensures InitializeMemory(m, [d], rt) ==
              if InitializeMemoryData(m, d, rt).Ok? then Attempt(InitializeMemoryData(m, d, rt).value, None)
              else Attempt(m, Some(InitializeMemoryData(m, d, rt).error))
  {
    assert [d][0] == d && [d][1..] == [];
  }

  /** When data segment `k` is the first to fail, the memories are left
      exactly as the segments before it wrote them. */
  lemma DataFailureKeepsPrefix(m: Module, data: seq<Data>, k: nat, rt: Runtime)
    requires k < |data|
    requires InitializeMemory(m, data[..k], rt).failure.None?
    requires InitializeMemoryData(InitializeMemory(m, data[..k], rt).state, data[k], rt).Err?
    ensures var before := InitializeMemory(m, data[..k], rt).state;
            InitializeMemory(m, data, rt) ==
              Attempt(before, Some(InitializeMemoryData(before, data[k], rt).error))
  {
    assert data == data[..k] + data[k..];
    DataSplit(m, data[..k], data[k..], rt);
    assert data[k..][0] == data[k];
  }

  // ---------------------------------------------------------------- exports

  /** The item an export value refers to exists in `m`. */
  predicate Resolvable(m: Module, v: ExportValue) {
    match v
    case FunctionRef(idx) => CallableIdx(m, idx).Ok?
    case TableRef(idx) => TableIdx(m, idx).Ok?
    case MemoryRef(idx) => MemIdx(m, idx).Ok?
    case GlobalRef(idx) => GlobalIdx(m, idx).Ok?
  }

  lemma {:induction false} LastExportIsAnExport(exports: seq<Export>, name: string)
    requires LastExport(exports, name).Some?
    ensures exists k :: 0 <= k < |exports| && exports[k].desc == LastExport(exports, name).value
    decreases |exports|
  {
    var n := |exports|;
    if exports[n - 1].name != name {
      LastExportIsAnExport(exports[..n - 1], name);
      var k :| 0 <= k < n - 1 && exports[..n - 1][k].desc == LastExport(exports, name).value;
      assert exports[k] == exports[..n - 1][k];
    }
  }

  /** Once the segments are applied, every export still names an existing
      item through the module's bounded accessors. */
  lemma ExportsResolvable(raw: RawModule, resolver: Resolver, rt: Runtime)
    requires BuildStore(raw, resolver, rt).Ok?
    requires Initialize(BuildStore(raw, resolver, rt).value, raw, rt).Ok?
    ensures var m := Initialize(BuildStore(raw, resolver, rt).value, raw, rt).value;
            forall name :: name in m.exports ==> Resolvable(m, m.exports[name])
  {
    var built := BuildStore(raw, resolver, rt).value;
    var m := Initialize(built, raw, rt).value;
    BuildStoreGlobalsAndExports(raw, resolver, rt);
    forall name | name in m.exports
      ensures Resolvable(m, m.exports[name])
    {
      LastExportIsAnExport(raw.exports, name);
      var k :| 0 <= k < |raw.exports| && raw.exports[k].desc == LastExport(raw.exports, name).value;
      assert ExportInRange(built, raw.exports[k].desc);
    }
  }
}

=== FILE: section_order.dfy ===
/**
  Properties of the section reader: which section streams it accepts, that
  custom sections are skipped wherever they stand, and what the order rule
  amounts to under the section order of the WebAssembly 1.0 binary format.
 */
module SectionOrder {
  import opened Base
  import opened Sections

  /** Every item before the first unreadable section id is a section whose
      body was accepted and, unless it is a custom section, read to its end. */
  ghost predicate Readable(items: seq<SectionItem>)
    decreases |items|
  {
    |items| == 0 ||
    match items[0]
    case Unreadable => true
    case BadLength => false
    case Present(s) => s.contentOk && (s.kind == CustomSection || s.consumed) && Readable(items[1..])
  }

  /** The non-custom sections before the first unreadable section id, in
      stream order. */
  ghost function Processed(items: seq<SectionItem>): (ss: seq<Section>)
    ensures forall k :: 0 <= k < |ss| ==> ss[k].kind != CustomSection
    decreases |items|
  {
    if |items| == 0 then []
    else match items[0]
      case Unreadable => []
      case BadLength => []
      case Present(s) => (if s.kind == CustomSection then [] else [s]) + Processed(items[1..])
  }

  /** The section loop succeeds exactly on readable streams whose non-custom
      sections follow the successor chain (repeats allowed), and it hands
      exactly those sections to the module builder. */
  lemma {:induction false} ReadSectionsAccepts(next: SectionType -> Option<SectionType>, expected: SectionType, items: seq<SectionItem>)
    requires Advances(next)
    ensures ReadSections(next, expected, items).Ok? <==> Readable(items) && InOrder(next, expected, Processed(items))
    ensures ReadSections(next, expected, items).Ok? ==> ReadSections(next, expected, items).value == Processed(items)
    decreases |items|
  {
    if |items| > 0 && items[0].Present? {
      var s := items[0].section;
      var rest := items[1..];
      var step := Step(next, expected, s);
      if s.kind == CustomSection {
        assert Processed(items) == [] + Processed(rest) == Processed(rest);
        if step.Ok? {
          ReadSectionsAccepts(next, expected, rest);
        }
      } else {
        InOrderCons(next, expected, s, Processed(rest));
        if step.Ok? {
          ReadSectionsAccepts(next, s.kind, rest);
        }
      }
    }
  }

  /** The reader hands the module builder its sections exactly when the
      preamble is correct and the section stream is readable and in order
      from the type section; those are then its non-custom sections in stream
      order. Building the raw module from them is not part of this model. */
  lemma ReadModuleAccepts(next: SectionType -> Option<SectionType>, header: seq<byte>, items: seq<SectionItem>)
    requires Advances(next)
    ensures ReadModule(next, header, items).Ok? <==>
              && |header| >= HeaderLength && header[..HeaderLength] == ExpectedHeader
              && Readable(items) && InOrder(next, TypeSection, Processed(items))
    ensures ReadModule(next, header, items).Ok? ==> ReadModule(next, header, items).value == Processed(items)
  {
    ReadSectionsAccepts(next, TypeSection, items);
  }

  /** A well-formed custom section can be removed from any position of the
      stream without changing what the reader returns. */
  lemma {:induction false} CustomSectionsSkipped(next: SectionType -> Option<SectionType>, expected: SectionType,
                                                 before: seq<SectionItem>, custom: Section, after: seq<SectionItem>)
    requires Advances(next)
    requires custom.kind == CustomSection && custom.contentOk
    ensures ReadSections(next, expected, before + [Present(custom)] + after) == ReadSections(next, expected, before + after)
    decreases |before|
  {
    var with := before + [Present(custom)] + after;
    if |before| == 0 {
      assert with[0] == Present(custom) && with[1..] == after;
      assert before + after == after;
    } else {
      assert with[0] == (before + after)[0] == before[0];
      assert with[1..] == before[1..] + [Present(custom)] + after;
      assert (before + after)[1..] == before[1..] + after;
      if before[0].Present? {
        var step := Step(next, expected, before[0].section);
        if step.Ok? {
          CustomSectionsSkipped(next, step.value, before[1..], custom, after);
        }
      }
    }
  }

  /** The successor function of the section order of the WebAssembly 1.0
      binary format (section 5.5.2 of its Core Specification): type, import,
      function, table, memory, global, export, start, element, code, data. */
  function StandardNext(t: SectionType): (r: Option<SectionType>)
    ensures r.Some? ==> Id(r.value) == Id(t) + 1
    ensures r.None? <==> t == CustomSection || t == DataSection
  {
    match t
    case CustomSection => None
    case TypeSection => Some(ImportSection)
    case ImportSection => Some(FunctionSection)
    case FunctionSection => Some(TableSection)
    case TableSection => Some(MemorySection)
    case MemorySection => Some(GlobalSection)
    case GlobalSection => Some(ExportSection)
    case ExportSection => Some(StartSection)
    case StartSection => Some(ElementSection)
    case ElementSection => Some(CodeSection)
    case CodeSection => Some(DataSection)
    case DataSection => None
  }

  lemma StandardAdvances()
    ensures Advances(StandardNext)
  {
  }

  lemma IdInjective(t: SectionType, u: SectionType)
    ensures Id(t) == Id(u) ==> t == u
  {
  }

  /** Under the standard order, `n` successor steps add exactly `n` to the
      section id. */
  lemma {:induction false} StandardIterate(t: SectionType, n: nat, u: SectionType)
    requires t != CustomSection
    ensures Iterate(StandardNext, t, n) == Some(u) <==> Id(u) == Id(t) + n
    decreases n
  {
    IdInjective(t, u);
    if n > 0 {
      match StandardNext(t)
      case None =>
      case Some(v) =>
        StandardIterate(v, n - 1, u);
    }
  }

  /** Under the standard order, a section type is acceptable after another
      exactly when its id is not smaller. */
  lemma StandardReaches(from: SectionType, to: SectionType)
    requires from != CustomSection && to != CustomSection
    ensures Reaches(StandardNext, from, to) <==> Id(from) <= Id(to)
  {
    if Reaches(StandardNext, from, to) {
      var n: nat :| Iterate(StandardNext, from, n) == Some(to);
      StandardIterate(from, n, to);
    }
    if Id(from) <= Id(to) {
      var n: nat := Id(to) - Id(from);
      StandardIterate(from, n, to);
      assert Iterate(StandardNext, from, n) == Some(to);
    }
  }

  /** Under the standard order, a readable stream is accepted exactly when
      the ids of its non-custom sections never decrease: sections come in
      order and a section type may repeat. */
  lemma StandardOrderAccepts(items: seq<SectionItem>)
    requires Readable(items)
    ensures ReadSections(StandardNext, TypeSection, items).Ok? <==>
              forall k :: 0 < k < |Processed(items)| ==> Id(Processed(items)[k - 1].kind) <= Id(Processed(items)[k].kind)
  {
    StandardAdvances();
    ReadSectionsAccepts(StandardNext, TypeSection, items);
    var ss := Processed(items);
    forall k | 0 <= k < |ss|
      ensures Reaches(StandardNext, Before(TypeSection, ss, k), ss[k].kind) <==> Id(Before(TypeSection, ss, k)) <= Id(ss[k].kind)
    {
      StandardReaches(Before(TypeSection, ss, k), ss[k].kind);
    }
    if forall k :: 0 < k < |ss| ==> Id(ss[k - 1].kind) <= Id(ss[k].kind) {
      forall k | 0 <= k < |ss|
        ensures Id(Before(TypeSection, ss, k)) <= Id(ss[k].kind)
      {
        if k > 0 {
          assert Id(ss[k - 1].kind) <= Id(ss[k].kind);
        }
      }
    }
    if InOrder(StandardNext, TypeSection, ss) {
      forall k | 0 < k < |ss|
        ensures Id(ss[k - 1].kind) <= Id(ss[k].kind)
      {
        assert Reaches(StandardNext, Before(TypeSection, ss, k), ss[k].kind);
      }
    }
  }
}

=== FILE: sections.dfy ===
/**
  Reading a binary WebAssembly module (section 5.5 of the WebAssembly Core
  Specification 1.0): the 8-byte preamble, then a stream of sections.

  The byte-level work (LEB128 numbers, names, the scoped section reader and
  the module builder that interprets each section body) is not part of this
  model. A section is an abstract record: its id, whether its body was
  accepted, and whether the body was read to its end. What is modelled is the
  reader's own logic: the preamble check, skipping custom sections, the
  section-order state machine driven by the successor function over section
  types, and the "read the whole section" check.
 */
module Sections {
  import opened Base

  /** The magic number `\0asm` followed by version 1, little-endian. */
  const ExpectedHeader: seq<byte> := [0x00, 0x61, 0x73, 0x6d, 0x01, 0x00, 0x00, 0x00]
  const HeaderLength: nat := 8

  datatype SectionType =
    | CustomSection
    | TypeSection
    | ImportSection
    | FunctionSection
    | TableSection
    | MemorySection
    | GlobalSection
    | ExportSection
    | StartSection
    | ElementSection
    | CodeSection
    | DataSection

  const MaxId: nat := 11

  /** The section id byte of each section type. */
  function Id(t: SectionType): (id: nat)
    ensures id <= MaxId
    ensures id == 0 <==> t == CustomSection
  {
    match t
    case CustomSection => 0
    case TypeSection => 1
    case ImportSection => 2
    case FunctionSection => 3
    case TableSection => 4
    case MemorySection => 5
    case GlobalSection => 6
    case ExportSection => 7
    case StartSection => 8
    case ElementSection => 9
    case CodeSection => 10
    case DataSection => 11
  }

  /** The successor function over section types (the module builder's
      "next section type") moves strictly forward through the section ids,
      so the reader's search for the expected section always ends. */
  ghost predicate Advances(next: SectionType -> Option<SectionType>) {
    forall t :: next(t).Some? ==> Id(t) < Id(next(t).value)
  }

  /** The successor after `n` steps of `next`, if the chain is that long. */
  function Iterate(next: SectionType -> Option<SectionType>, t: SectionType, n: nat): Option<SectionType>
    decreases n
  {
    if n == 0 then Some(t)
    else match next(t)
      case None => None
      case Some(u) => Iterate(next, u, n - 1)
  }

  /** `to` is `from` itself or lies further along the successor chain. */
  ghost predicate Reaches(next: SectionType -> Option<SectionType>, from: SectionType, to: SectionType) {
    exists n: nat :: Iterate(next, from, n) == Some(to)
  }

  /** The reader's search loop: starting at the expected type, follow the
      successor chain until the section's own type turns up (found) or the
      chain ends (the section is out of order). */
  function FindSection(next: SectionType -> Option<SectionType>, from: SectionType, kind: SectionType): (r: Option<SectionType>)
    requires Advances(next)
    ensures r.Some? ==> r.value == kind && Id(from) <= Id(kind)
    decreases MaxId - Id(from)
  {
    if from == kind then Some(from)
    else match next(from)
      case None => None
      case Some(u) => FindSection(next, u, kind)
  }

  lemma {:induction false} FindSectionSound(next: SectionType -> Option<SectionType>, from: SectionType, kind: SectionType)
    requires Advances(next)
    requires FindSection(next, from, kind).Some?
    ensures Iterate(next, from, NumSteps(next, from, kind)) == Some(kind)
    decreases MaxId - Id(from)
  {
    if from != kind {
      FindSectionSound(next, next(from).value, kind);
    }
  }

  /** The number of successor steps the search loop takes to find `kind`. */
  function NumSteps(next: SectionType -> Option<SectionType>, from: SectionType, kind: SectionType): nat
    requires Advances(next)
    requires FindSection(next, from, kind).Some?
    decreases MaxId - Id(from)
  {
    if from == kind then 0 else 1 + NumSteps(next, next(from).value, kind)
  }

  lemma {:induction false} FindSectionComplete(next: SectionType -> Option<SectionType>, from: SectionType, kind: SectionType, n: nat)
    requires Advances(next)
    requires Iterate(next, from, n) == Some(kind)
    ensures FindSection(next, from, kind) == Some(kind)
    decreases n
  {
    if from != kind {
      assert n != 0;
      FindSectionComplete(next, next(from).value, kind, n - 1);
    }
  }

  /** The search loop finds a section type exactly when it is reachable
      along the successor chain, the expected type itself included. */
  lemma FindSectionReaches(next: SectionType -> Option<SectionType>, from: SectionType, kind: SectionType)
    requires Advances(next)
    ensures FindSection(next, from, kind).Some? <==> Reaches(next, from, kind)
  {
    if FindSection(next, from, kind).Some? {
      FindSectionSound(next, from, kind);
    }
    if Reaches(next, from, kind) {
      var n: nat :| Iterate(next, from, n) == Some(kind);
      FindSectionComplete(next, from, kind, n);
    }
  }

  /** A section as the reader meets it. `contentOk` says whether the body
      was accepted (a custom section's name and bytes could be read, another
      section's body was accepted by the module builder); `consumed` says
      whether the builder read the body to its end. */
  datatype Section = Section(kind: SectionType, contentOk: bool, consumed: bool)

  /** One step of the stream after the preamble. `Unreadable`: no section id
      could be read, which the reader treats as the end of the module.
      `BadLength`: the id was read but its length was not. */
  datatype SectionItem = Unreadable | BadLength | Present(section: Section)

  /** The preamble check. A stream shorter than the preamble fails to read. */
  function CheckHeader(header: seq<byte>): (r: Result<()>)
    ensures r.Ok? <==> |header| >= HeaderLength && header[..HeaderLength] == ExpectedHeader
    ensures |header| >= HeaderLength && header[..HeaderLength] != ExpectedHeader ==> r == Err(InvalidModuleHeader)
    ensures |header| < HeaderLength ==> r == Err(StreamError)
  {
    if |header| < HeaderLength then Err(StreamError)
    else if header[..HeaderLength] != ExpectedHeader then Err(InvalidModuleHeader)
    else Ok(())
  }

  /** Processes one section against the expected section type and returns
      the type expected afterwards. */
  function Step(next: SectionType -> Option<SectionType>, expected: SectionType, s: Section): (r: Result<SectionType>)
    requires Advances(next)
    ensures s.kind == CustomSection ==> (r.Ok? <==> s.contentOk) && (r.Ok? ==> r.value == expected)
    ensures s.kind != CustomSection ==>
              (r.Ok? <==> Reaches(next, expected, s.kind) && s.contentOk && s.consumed)
    ensures s.kind != CustomSection && r.Ok? ==> r.value == s.kind
    ensures s.kind != CustomSection && !Reaches(next, expected, s.kind) ==> r == Err(InvalidSectionOrder)
    ensures s.kind != CustomSection && Reaches(next, expected, s.kind) && s.contentOk && !s.consumed ==>
              r == Err(IncompleteSection)
    ensures s.kind == CustomSection && !s.contentOk ==> r == Err(StreamError)
    ensures s.kind != CustomSection && Reaches(next, expected, s.kind) && !s.contentOk ==> r == Err(MalformedSection)
  {
    FindSectionReaches(next, expected, s.kind);
    if s.kind == CustomSection then
      // the name and the rest of the body are read and dropped
      if s.contentOk then Ok(expected) else Err(StreamError)
    else
      match FindSection(next, expected, s.kind)
      case None => Err(InvalidSectionOrder)
      case Some(t) =>
        if !s.contentOk then Err(MalformedSection)
        else if !s.consumed then Err(IncompleteSection)
        else Ok(t)
  }

  /** The type a section of `ss` is checked against: `start` for the
      first, the type of the section before it for the others. */
  function Before(start: SectionType, ss: seq<Section>, k: nat): SectionType
    requires k < |ss|
  {
    if k == 0 then start else ss[k - 1].kind
  }

  /** The sections `ss` come in an order the successor chain allows: each
      section's type is reachable from the one before it, and the first
      from `start`. */
  ghost predicate InOrder(next: SectionType -> Option<SectionType>, start: SectionType, ss: seq<Section>) {
    forall k :: 0 <= k < |ss| ==> Reaches(next, Before(start, ss, k), ss[k].kind)
  }

  lemma InOrderCons(next: SectionType -> Option<SectionType>, start: SectionType, s: Section, ss: seq<Section>)
    ensures InOrder(next, start, [s] + ss) <==> Reaches(next, start, s.kind) && InOrder(next, s.kind, ss)
  {
    var all := [s] + ss;
    assert Before(start, all, 0) == start && all[0] == s;
    forall k | 0 <= k < |ss|
      ensures Before(start, all, k + 1) == Before(s.kind, ss, k) && all[k + 1] == ss[k]
    {
    }
    if Reaches(next, start, s.kind) && InOrder(next, s.kind, ss) {
      forall k | 0 <= k < |all|
        ensures Reaches(next, Before(start, all, k), all[k].kind)
      {
        if k > 0 {
          assert Before(start, all, k) == Before(s.kind, ss, k - 1);
        }
      }
    }
    if InOrder(next, start, all) {
      forall k | 0 <= k < |ss|
        ensures Reaches(next, Before(s.kind, ss, k), ss[k].kind)
      {
        assert Reaches(next, Before(start, all, k + 1), all[k + 1].kind);
      }
    }
  }

  /** The section loop. Returns the non-custom sections handed to the module
      builder, in stream order. */
  function ReadSections(next: SectionType -> Option<SectionType>, expected: SectionType, items: seq<SectionItem>): (r: Result<seq<Section>>)
    requires Advances(next)
    ensures r.Ok? ==> forall k :: 0 <= k < |r.value| ==>
              r.value[k].kind != CustomSection && r.value[k].contentOk && r.value[k].consumed
    ensures r.Ok? ==> InOrder(next, expected, r.value)
    decreases |items|
  {
    if |items| == 0 then Ok([])
    else match items[0]
      case Unreadable => Ok([])
      case BadLength => Err(StreamError)
      case Present(s) =>
        var expected' :- Step(next, expected, s);
        var rest :- ReadSections(next, expected', items[1..]);
        if s.kind == CustomSection then Ok(rest)
        else
          InOrderCons(next, expected, s, rest);
          Ok([s] + rest)
  }

  /** Reads a whole module: the preamble, then the sections, starting with
      the type section expected. `header` is what the stream offers for the
      preamble: `read_exact` fills an 8-byte buffer, so only its first eight
      bytes are read, and a shorter one ends the stream early. The rest of
      the stream, after the preamble, is `items`. */
  function ReadModule(next: SectionType -> Option<SectionType>, header: seq<byte>, items: seq<SectionItem>): (r: Result<seq<Section>>)
    requires Advances(next)
    ensures r.Ok? ==> |header| >= HeaderLength && header[..HeaderLength] == ExpectedHeader
    ensures |header| >= HeaderLength && header[..HeaderLength] != ExpectedHeader ==> r == Err(InvalidModuleHeader)
    ensures |header| < HeaderLength ==> r == Err(StreamError)
    ensures r.Ok? ==> InOrder(next, TypeSection, r.value)
  {
    var _ :- CheckHeader(header);
    ReadSections(next, TypeSection, items)
  }
}

=== FILE: store.dfy ===
/**
  The data of module resolution: the raw module as decoded from the binary
  format, the resolved module (its index spaces of functions, tables,
  memories and globals, its exports and function types), the collaborators
  whose code is not part of this model, and the module's bounded accessors.

  In the loader every function, table, memory and global is a shared,
  mutable cell. Here the module holds the cells' contents in sequences and a
  cell is named by its position in its index space; positions never move once
  a cell has been added, so an export's index keeps naming the same item.
  Two positions never share one cell here, and the host's view of imported
  cells is not modelled.
 */
module Store {
  import opened Base

  datatype ValType = I32 | I64 | F32 | F64

  datatype FuncType = FuncType(params: seq<ValType>, results: seq<ValType>)

  datatype Limits = Limits(min: nat, max: Option<nat>)

  datatype TableType = TableType(limits: Limits)

  datatype MemType = MemType(limits: Limits)

  datatype GlobalType = GlobalType(valType: ValType, mutable: bool)

  /** An instruction sequence (a function body or a constant expression).
      Its meaning belongs to the constant evaluator and the interpreter. */
  type Code = seq<byte>

  datatype Func = Func(locals: seq<ValType>, body: Code)

  datatype GlobalDef = GlobalDef(globalType: GlobalType, initExpr: Code)

  /** An element segment: function indices to write into a table at the
      offset its constant expression evaluates to. */
  datatype Element = Element(tableIdx: nat, offset: Code, funcIndices: seq<nat>)

  /** A data segment: bytes to write into a memory at the offset its
      constant expression evaluates to. */
  datatype Data = Data(memIdx: nat, offset: Code, bytes: seq<byte>)

  datatype ImportDesc =
    | FuncImport(typeIdx: nat)
    | TableImport(tableType: TableType)
    | MemImport(memType: MemType)
    | GlobalImport(globalType: GlobalType)

  datatype Import = Import(moduleName: string, name: string, desc: ImportDesc)

  datatype ExportDesc = FuncExport(idx: nat) | TableExport(idx: nat) | MemExport(idx: nat) | GlobalExport(idx: nat)

  datatype Export = Export(name: string, desc: ExportDesc)

  /** A module as decoded from the binary format, before resolution.
      `typeIdx[k]` is the type index of the k-th defined function `funcs[k]`. */
  datatype RawModule = RawModule(
    types: seq<FuncType>,
    typeIdx: seq<nat>,
    funcs: seq<Func>,
    tables: seq<TableType>,
    mems: seq<MemType>,
    globals: seq<GlobalDef>,
    elem: seq<Element>,
    data: seq<Data>,
    start: Option<nat>,
    imports: seq<Import>,
    exports: seq<Export>)

  newtype i32 = x: int | -0x8000_0000 <= x < 0x8000_0000
  newtype i64 = x: int | -0x8000_0000_0000_0000 <= x < 0x8000_0000_0000_0000

  /** A value on the operand stack, as the constant evaluator produces it. */
  datatype StackEntry = I32Entry(i: i32) | I64Entry(l: i64) | F32Entry(f: bv32) | F64Entry(d: bv64)

  /** A function of the module: one supplied by the host through the
      resolver, or one defined by the module and run by the interpreter. */
  datatype Callable = HostCallable(handle: nat) | WasmExprCallable(funcType: FuncType, func: Func)

  datatype Table = Table(tableType: TableType, entries: seq<Option<Callable>>)

  datatype Memory = Memory(memType: MemType, bytes: seq<byte>)

  datatype Global = Global(globalType: GlobalType, value: StackEntry)

  /** What an export name refers to: a position in one of the index spaces. */
  datatype ExportValue = FunctionRef(idx: nat) | TableRef(idx: nat) | MemoryRef(idx: nat) | GlobalRef(idx: nat)

  datatype Module = Module(
    functions: seq<Callable>,
    tables: seq<Table>,
    memories: seq<Memory>,
    globals: seq<Global>,
    exports: map<string, ExportValue>,
    funcTypes: seq<FuncType>)

  const EmptyModule := Module([], [], [], [], map[], [])

  /** The host's import resolver: each lookup may fail. */
  datatype Resolver = Resolver(
    resolveFunction: (string, string, FuncType) -> Result<Callable>,
    resolveTable: (string, string, TableType) -> Result<Table>,
    resolveMemory: (string, string, MemType) -> Result<Memory>,
    resolveGlobal: (string, string, GlobalType) -> Result<Global>)

  /** The other collaborators of resolution, whose code is not part of this
      model: the constant-expression evaluator (asked for one value, reading
      the module built so far), the global, table and memory constructors,
      writing a table's entries, writing a memory's bytes, and calling a
      function (the interpreter, which may change the module). */
  datatype Runtime = Runtime(
    evalConst: (Code, Module) -> Result<StackEntry>,
    newGlobal: (GlobalType, StackEntry) -> Result<Global>,
    newTable: TableType -> Table,
    newMemory: MemType -> Memory,
    setEntries: (Table, nat, seq<Callable>) -> Table,
    setData: (Memory, nat, seq<byte>) -> Result<Memory>,
    call: (Callable, Module) -> Result<Module>)

  /** Index `idx` of `items`, or the error `missing` when it is out of range. */
  function At<T>(items: seq<T>, idx: nat, missing: Error): (r: Result<T>)
    ensures r.Ok? <==> idx < |items|
    ensures r.Ok? ==> r.value == items[idx]
    ensures r.Err? ==> r.error == missing
  {
    if idx < |items| then Ok(items[idx]) else Err(missing)
  }

  function GlobalIdx(m: Module, idx: nat): (r: Result<Global>)
    ensures r.Ok? <==> idx < |m.globals|
    ensures r.Ok? ==> r.value == m.globals[idx]
    ensures r.Err? ==> r.error == GlobalIndexOutOfRange
  {
    At(m.globals, idx, GlobalIndexOutOfRange)
  }

  /** Mutable access to a global: `update` is what the caller does through
      the mutable reference. */
  function GlobalIdxMut(m: Module, idx: nat, update: Global -> Global): (r: Result<Module>)
    ensures r.Ok? <==> idx < |m.globals|
    ensures r.Err? ==> r.error == GlobalIndexOutOfRange
    ensures r.Ok? ==> forall j: nat :: GlobalIdx(r.value, j) == if j == idx then Ok(update(m.globals[idx])) else GlobalIdx(m, j)
    ensures r.Ok? ==> r.value == m.(globals := r.value.globals)
  {
    if idx < |m.globals| then Ok(m.(globals := m.globals[idx := update(m.globals[idx])]))
    else Err(GlobalIndexOutOfRange)
  }

  function FuncTypeIdx(m: Module, idx: nat): (r: Result<FuncType>)
    ensures r.Ok? <==> idx < |m.funcTypes|
    ensures r.Ok? ==> r.value == m.funcTypes[idx]
    ensures r.Err? ==> r.error == FuncTypeIndexOutOfRange
  {
    At(m.funcTypes, idx, FuncTypeIndexOutOfRange)
  }

  function TableIdx(m: Module, idx: nat): (r: Result<Table>)
    ensures r.Ok? <==> idx < |m.tables|
    ensures r.Ok? ==> r.value == m.tables[idx]
    ensures r.Err? ==> r.error == TableIndexOutOfRange
  {
    At(m.tables, idx, TableIndexOutOfRange)
  }

  function CallableIdx(m: Module, idx: nat): (r: Result<Callable>)
    ensures r.Ok? <==> idx < |m.functions|
    ensures r.Ok? ==> r.value == m.functions[idx]
    ensures r.Err? ==> r.error == CallableIndexOutOfRange
  {
    At(m.functions, idx, CallableIndexOutOfRange)
  }

  function MemIdx(m: Module, idx: nat): (r: Result<Memory>)
    ensures r.Ok? <==> idx < |m.memories|
    ensures r.Ok? ==> r.value == m.memories[idx]
    ensures r.Err? ==> r.error == MemoryIndexOutOfRange
  {
    At(m.memories, idx, MemoryIndexOutOfRange)
  }

  /** Mutable access to a memory: `update` is what the caller does through
      the mutable reference. */
  function MemIdxMut(m: Module, idx: nat, update: Memory -> Memory): (r: Result<Module>)
    ensures r.Ok? <==> idx < |m.memories|
    ensures r.Err? ==> r.error == MemoryIndexOutOfRange
    ensures r.Ok? ==> forall j: nat :: MemIdx(r.value, j) == if j == idx then Ok(update(m.memories[idx])) else MemIdx(m, j)
    ensures r.Ok? ==> r.value == m.(memories := r.value.memories)
  {
    if idx < |m.memories| then Ok(m.(memories := m.memories[idx := update(m.memories[idx])]))
    else Err(MemoryIndexOutOfRange)
  }
}
